=== FILE: README.md ===
# multifeed-index core, modelled in Dafny

This project models the core of `multifeed-index`, an indexer that walks every
feed of a multifeed log in order. It also models the checkpoint format the
package provides for the indexer's cursors.

- **Checkpoint codec** (`lib/state.js`). `serializeState` takes a dictionary of
  feed cursors `{ key, min, max }` and writes it as bytes:
  - a u32 little-endian record count;
  - one 40-byte record per cursor: the 32-byte key, then `min` and `max` as u32 LE;
  - an optional trailing u32 LE version.

  `deserializeState` reads the bytes back into a dictionary keyed by the hex
  of each key. A later record with the same key overwrites an earlier one. A
  missing version reads as 1.
- **Indexer** (`index.js`):
  - The constructor's option checks and initial state.
  - `ready(fn)`.
  - The `_run` pass. It gives each newly seen feed a cursor at the feed's
    current length. It starts one `get` at `seq = max` for every feed whose
    `max` lags its length. Each completion hands one node to `batch` and
    then increments a cursor. When the last completion arrives, the indexer
    either runs again or emits `'ready'`.

Modules:

- `Results`: `Option` and a failure-compatible `Result`.
- `Bytes`: u32 LE encoding, `int32buf`, `readUInt32LE` and `slice`.
- `Text`: lower-case hex, decimal numerals and the `key@seq` node ids.
- `Dicts`: a JavaScript object as an insertion-ordered property list.
- `State`: the checkpoint codec.
- `Scan`: the `for` loop of `_run`.
- `Passes`: whole passes as pure functions on the cursor list, in two versions: as written and corrected.
- `Indexer`: the instance state, the constructor, `ready`, `_run`, the completions and `done`, all as one event-driven state machine.

The asynchronous parts of `_run` are modelled as events that follow the scan
loop:
- the `get` callbacks;
- `batch`'s continuation;
- `done`.

`Run` performs the loop and records one pending callback per started fetch.
`Complete` fires one pending callback, whichever one returns next.
- `FullPass` runs a pass and then completes its callbacks first to last.
- `DrainIn` completes them in any order the `get` and `batch` callbacks can
  return in. Such an order is a `Schedule`: at each step, the index of one
  of the callbacks still outstanding.
- `DrainOrderIrrelevant` and `FullPassAnyOrder` prove that every order ends
  in the same state, effect and releases as the first-to-last one. They
  also prove that every order hands `batch` the same nodes.

So in every completion order a pass ends with the same cursors, effect,
released waiters and multiset of nodes as in the first-to-last one.
`AnyOrderPassMatches` states this for the link to the pure pass functions.
The ORDER in which nodes reach `batch` is the completion order. The lemmas
about node positions (`FullPass`, `DrainBatch`, `FullPassIds`,
`AsWrittenStampsLastId`) describe the first-to-last order only.

Two of the closure semantics are written out explicitly, because they decide
what the indexer does:

1. The callbacks close over the function-scoped `var`s `n` and `seq`, and
   they run after the loop has finished. So every completion increments the
   cursor of the last feed that had work, and every node gets that feed's
   key and sequence number as its id.
2. A newly seen feed gets `min = max = length`, and any positive `min` sets
   `didWork`.

The model keeps both behaviours in the "as written" policy (`AsWritten`,
`PassAsWritten`). The "corrected" policy (`Corrected`, `PassFixed`) credits
each completion to its own feed and counts only started fetches as work. The
consequences of both behaviours are listed under Findings.

Behaviours of the code worth knowing, which the model keeps:
- A newly seen feed's cursor starts at `min = max = length`, so entries
  already in the feed when the indexer first sees it are never indexed
  (backward indexing is a TODO at index.js:12).
- A version of 0, or a value that is not a number, is not written, so
  deserialization returns version 1 for it.
- This version of `index.js` never calls `lib/state.js`. The checkpoint codec
  and the indexer are separate parts of the model.

## Model

| member | source | states |
|---|---|---|
| Bytes.Int32Buf | lib/state.js:12-16 | Succeeds exactly for integers in [0, 2^32), otherwise fails with a range error; on success the buffer has four bytes that read back as `n` |
| Bytes.DecodeEncode | lib/state.js:12-16 | Reading the four little-endian bytes written for any u32 gives that u32 back |
| Bytes.EncodeDecode | lib/state.js:37 | Any four bytes are the encoding of the u32 they decode to, so reading a count loses no information |
| Bytes.EncodeInjective | lib/state.js:12-16 | Two u32s have the same four-byte encoding exactly when they are equal |
| Bytes.ReadUInt32LE | lib/state.js:37 | Reading a u32 succeeds exactly when all four bytes at the offset lie inside the buffer, otherwise it is a range error; the value is always a u32 |
| Bytes.ReadAfterWrite | lib/state.js:41-42 | A u32 written at any position of a buffer is read back from that position, whatever surrounds it |
| Bytes.Slice | lib/state.js:40 | `slice` never fails: within bounds it is the subsequence; an end past the buffer is clamped to its length, giving the rest of the buffer from `start`; a start past both gives an empty result |
| Text.Hex | lib/state.js:43 | The hex name of a key has two characters per byte, all lower-case hex digits |
| Text.HexInjective | lib/state.js:43 | Two keys have the same hex property name exactly when they are the same bytes, so distinct feeds never share a slot |
| Text.Decimal | index.js:67 | The decimal form of a sequence number is non-empty, all digits, and longer than one digit exactly from 10 upwards |
| Text.DecimalInjective | index.js:67 | Two sequence numbers print the same exactly when they are equal |
| Text.EntryId | index.js:67 | A node id splits at its only '@' into the key's hex before it and the decimal sequence number after it |
| Text.EntryIdInjective | index.js:67 | Two node ids are equal exactly when both their keys and their sequence numbers are equal |
| Dicts.Get | lib/state.js:63 | Looking up a name gives `undefined` exactly when no property has that name |
| Dicts.GetAt | lib/state.js:63 | In an object without repeated names, looking up each property's name gives that property's value |
| Dicts.Put | lib/state.js:43-47 | Assignment makes the name map to the new value and leaves every other name's value alone; an existing name keeps its position; a new name is appended last |
| Dicts.PutKeepsUnique | lib/state.js:43-47 | Assignment never creates a second property with the same name |
| Dicts.Values | lib/state.js:62-64 | `values` has one entry per property, and in an object without repeated names each entry is the value its name looks up |
| State.VersionBytes | lib/state.js:29 | A version is written only when it is a non-zero number; then it takes four bytes that decode to it, and a number outside u32 is a range error |
| State.SerializeRecords | lib/state.js:23-27 | The record loop fails exactly when some `min` or `max` is outside u32; otherwise it emits the records of the cursors in order |
| State.SerializeState | lib/state.js:19-32 | Serialization succeeds exactly when the cursor count, every `min` and `max`, and any version that gets written are u32 |
| State.SerializeLength | lib/state.js:19-32 | With 32-byte keys a checkpoint is 4 + 40·N bytes, plus 4 when a version is written |
| State.SerializeCount | lib/state.js:21 | The first four bytes of every checkpoint decode to the number of cursors |
| State.SerializeRecordLayout | lib/state.js:23-27 | Record i sits at byte 4 + 40·i: the i-th cursor's key, then its `min`, then its `max` |
| State.EncodeRecordsLayout | lib/state.js:23-27 | The records block is 40 bytes per cursor, and bytes 40·i to 40·i + 40 are the i-th cursor's record |
| State.SerializeVersionLayout | lib/state.js:29-31 | A written version is the last four bytes, directly after the records |
| State.RecordAt | lib/state.js:39-42 | Reading a record at position p succeeds exactly when its 40 bytes are inside the buffer, and then gives key = bytes [p, p+32), min = the little-endian u32 at p+32 and max = the little-endian u32 at p+36 |
| State.FromRecords | lib/state.js:38-48 | The assignment loop builds a dictionary with at most one property per record, and the last record is what its key's hex name looks up |
| State.Records | lib/state.js:38-42 | Decoding N records gives N cursors; with p = 4 + 40·i, the i-th has key = bytes [p, p+32), min = the little-endian u32 at p+32 and max = the little-endian u32 at p+36 |
| State.FromRecordsLastWins | lib/state.js:38-48 | The decoded dictionary has no repeated names, and each hex name maps to the last record with that key, or to nothing when no record has it |
| State.ReadRecords | lib/state.js:37-48 | The record loop succeeds exactly when all the records the count announces fit in the buffer; otherwise the first read past the end is a range error |
| State.VersionAt | lib/state.js:50-56 | The version is the u32 after the records when four more bytes are there; otherwise it is 1 |
| State.DeserializeState | lib/state.js:35-59 | Deserialization succeeds exactly when the count can be read and all announced records fit; the result is the last-wins dictionary of the records and the version read after them |
| State.IgnoresTrailingBytes | lib/state.js:50-56 | Once a checkpoint carries its version, appending bytes changes nothing that is decoded |
| State.RoundTrip | lib/state.js:19-59 | A storable dictionary (hex names, 32-byte keys, u32 bounds) serializes without error and decodes back to the same dictionary, in the same order, with the version that was written or else 1 |
| State.RoundTripByKey | lib/state.js:19-59 | Cursors with distinct 32-byte keys survive the round trip: each is found under its key's hex name, none is lost or added, and the version is preserved |
| State.DuplicateKeysCollapse | lib/state.js:43-47 | Two records with the same key decode to one property holding the second record |
| Scan.ScanFrom | index.js:55-58 | The loop keeps every existing cursor and gives each newly seen feed a cursor at `min = max = its length` |
| Scan.ScanFromWork | index.js:55-77 | From any iteration on, the loop starts exactly the fetches due for the remaining feeds, and sets `didWork` exactly when it was already set, a fetch is due, or a remaining `min` is positive |
| Scan.ScanFeeds | index.js:50-77 | One pass leaves a cursor per feed, starts exactly the fetches due, and reports work exactly when a fetch started or some `min` is positive |
| Scan.WorkSpec | index.js:61-65 | A feed gets a fetch exactly when its `max` is below its length, the fetch is at `seq = max`, there is at most one per feed, and fetches go in feed order |
| Passes.PassAsWritten | index.js:44-90 | The whole pass as the code performs it leaves one cursor per feed seen, reports the scan's `didWork`, never changes an existing cursor's `min` and never lowers its `max` |
| Passes.PassFixed | index.js:44-90 | The corrected pass leaves one cursor per feed seen, reports work exactly when a fetch started, never changes a `min`, and moves each existing `max` forward by at most one |
| Passes.AsWrittenAgreesWhenSingle | index.js:61-76 | With at most one fetch in a pass, the code as written moves the cursors exactly as the corrected pass does, and differs only in counting positive `min` as work |
| Passes.AsWrittenOvershoots | index.js:64-71 | Two feeds with one new entry each: as written, the second cursor moves to 2, past its feed's length, and the first does not move; corrected, each moves to 1 |
| Passes.AsWrittenSkipsLaterEntry | index.js:61-71 | After the overshoot, the next pass fetches feed 0's entry a second time and the pass after it is idle; once feed 1 grows by one entry no pass fetches it, while the corrected cursors do |
| Passes.AsWrittenSpinsWhenCaughtUp | index.js:74-76 | A pass with no fetch but a positive `min` reports work and leaves the cursors unchanged, so the next pass does exactly the same |
| Passes.FirstSeenNonEmptyFeedSpins | index.js:56-58 | A feed first seen with entries gets `min = length`; as written, every later pass reports work without changing anything, while the corrected pass is idle |
| Passes.FixedRunBounded | index.js:55-77 | Across corrected passes over growing feeds, every cursor stays within its feed's length, `max` never goes back, and `min` is never changed |
| Passes.AdvanceProgress | index.js:61-71 | A corrected pass reduces the number of entries still to index by exactly the number of fetches it started |
| Passes.IdlePassCaughtUp | index.js:84-88 | When the corrected pass does no work, every cursor's `max` equals its feed's length, i.e. the indexer is caught up when it emits 'ready' |
| Passes.PassDelivery | index.js:61-71 | For each feed, the sequence numbers fetched in one corrected pass followed by those still to come are exactly the entries from the cursor to the feed's end |
| Passes.PassFetchesMoved | index.js:61-71 | For an existing feed, one corrected pass fetches exactly the entries between the cursor's old and new `max`, in order |
| Passes.FixedRunDelivery | index.js:55-77 | Over any run of corrected passes on feeds that keep growing between passes, each existing feed has had fetched exactly the entries from its starting cursor to its final cursor, once each, in order, with no gaps |
| Passes.CatchUp | index.js:44-90 | Over feeds that do not grow during the loop, corrected passes repeated until one is idle end with every cursor at its feed's length; every entry past each existing cursor is delivered exactly once, in order, and nothing from a newly seen feed is delivered |
| Indexer.New | index.js:9-21 | Construction succeeds exactly when opts, `cores` and `batch` are all present; a failure names the first missing one, checked in that order; a new indexer is ready, has no cursors and no waiters |
| Indexer.ReadyCall | index.js:39-42 | `ready` calls back at once exactly when the indexer is ready; otherwise it adds one waiter and changes nothing else |
| Indexer.Callbacks | index.js:64-73 | The callbacks of a pass match its fetches one for one; corrected, each credits and labels its own fetch; as written, all credit the last lagging feed and carry that feed's key and sequence number |
| Indexer.Done | index.js:81-90 | Each `done` decrements pending; the last one makes the indexer ready and then reruns when work was done or otherwise emits 'ready', releasing every waiter |
| Indexer.Run | index.js:44-79 | A pass started while busy does nothing; otherwise it starts the fetches due, stays busy exactly while any is outstanding, sets `didWork` per the policy, and keeps the state well formed |
| Indexer.Complete | index.js:66-72 | A completion hands exactly its node to `batch`, increments only the credited cursor's `max` by one, removes that callback, and the last completion makes the indexer ready and reruns |
| Indexer.Drain | index.js:66-72 | Completing all outstanding callbacks leaves the indexer ready and well formed, with one batch call per callback and a rerun as the last effect |
| Indexer.DrainCursors | index.js:70 | After all completions, each cursor's `max` has grown by the number of callbacks that credit it and its `min` is unchanged |
| Indexer.DrainBatch | index.js:68-69 | The j-th node handed to `batch` is the j-th callback's fetch with that callback's id |
| Indexer.FullPass | index.js:44-90 | A full pass leaves the indexer ready and hands to `batch` one node per started fetch, in fetch order |
| Indexer.CorrectedStampsOwnId | index.js:66-68 | Corrected, every node's id is its own feed's hex key, '@', and its own sequence number |
| Indexer.AsWrittenStampsLastId | index.js:64-68 | As written, every node of a pass carries the id of the last fetch of the pass |
| Indexer.FullPassCursors | index.js:70 | After a full pass, each cursor is its post-scan value with `max` increased by the number of completions credited to it |
| Indexer.FullPassEffect | index.js:81-88 | A full pass ends by rerunning exactly when the pass recorded work, and otherwise by emitting 'ready' to all waiters |
| Indexer.AsWrittenPassMatches | index.js:44-90 | Running the state machine over the code as written gives exactly the cursors and the rerun or 'ready' outcome of the as-written pass function |
| Indexer.CorrectedPassMatches | index.js:44-90 | Running the corrected state machine gives exactly the cursors and the outcome of the corrected pass function |
| Indexer.AsWrittenMislabels | index.js:64-68 | Two distinct feeds with one entry each: as written, feed 0's entry 0 is handed to `batch` under feed 1's id, which differs from its own; corrected, it carries its own id |
| Indexer.AsWrittenRerunsForever | index.js:56-58 | A new indexer that first sees a non-empty feed reruns, and the rerun reproduces the same state, so 'ready' is never emitted; corrected, the first pass emits 'ready' |
| Indexer.CompletionOrderIrrelevant | index.js:69-72 | Completing two callbacks in either order yields the same state and effect |
| Indexer.DrainIn | index.js:66-72 | Completing all outstanding callbacks in any order leaves the indexer ready and well formed, with `didWork` kept and a rerun as the last effect |
| Indexer.DrainInCursors | index.js:70 | In any completion order, each cursor's `max` grows by the number of callbacks that credit it and its `min` is unchanged |
| Indexer.DrainInBatch | index.js:68-69 | In any completion order, `batch` receives each outstanding callback's node exactly once |
| Indexer.DrainOrderIrrelevant | index.js:66-90 | Every completion order ends in the same state, effect and releases as completing first to last, and hands `batch` the same nodes |
| Indexer.FullPassAnyOrder | index.js:44-90 | A pass whose fetches complete in any order ends exactly as the first-to-last pass, with the same nodes handed to `batch` |
| Indexer.AnyOrderPassMatches | index.js:44-90 | Whatever order the fetches complete in, the code as written ends at the as-written pass function's cursors and outcome, and the corrected code at the corrected one's |

## Left out

- I/O and events are parameters or steps of the model:
  - The `EventEmitter`, `process.nextTick` and `inherits` are not modelled. `ready` returns whether the callback runs now; a queued waiter is a count, released by 'ready'.
  - The `cores.ready`, `'feed'` and `'append'` triggers (index.js:25-34) are not modelled separately; each one is a call to `Run`.
  - `cores.feeds()` is a parameter: a snapshot of each feed's key and length.
  - `feeds[n].get` and `batch` are not modelled as calls; their completions are `Complete` steps.
  - One `Complete` step covers both the `get` callback and `batch`'s continuation for one fetch. Interleavings that split the two are not modelled separately. The cursors and `done` change only in the continuation, so such an interleaving changes at most the order of the nodes handed to `batch`.
  - `ready(fn)` calls made while callbacks are still outstanding are not part of `DrainIn`. They only add waiters (`ReadyCall`).
- Node contents are not modelled:
  - An `err` from `get` is ignored, as in the code.
  - A missing node, which would throw at `node.id`, is left out.
  - A node is reduced to its fetch and its id.
- The synchronous recursion `done` → `_run` is a `Rerun` effect, not a call. The unbounded recursion of Findings row 3 therefore shows as a state that repeats itself, not as a stack overflow.
- Number handling:
  - JavaScript numbers are integers here: fractional and non-finite cursor values, and the way `writeUInt32LE` truncates them, are left out. `Text.Decimal` matches `String(n)` only below 10^21, where JavaScript switches to exponent notation; sequence numbers that large are out of scope.
  - Any non-number version is `NotANumber`.
- Dictionary order:
  - Dictionary key order is insertion order. `Object.keys` lists integer-like names (array indices: canonical decimals below 2^32 - 1) first, in numeric order. So `Dicts.Values` matches JavaScript only for dictionaries without such names. The hex name of a 32-byte key has 64 characters and is never one. A shorter key whose hex is all digits (the single byte 0x12 gives "12") can be one.
- Keys:
  - The codec accepts keys of any length, as the code does. The layout and round-trip lemmas require 32-byte keys, the size the format is defined for.
  - Non-Buffer keys are not modelled.
- `Buffer.concat` and `Buffer.alloc` are sequence concatenation and a four-byte result.
- `buf.slice` returns a view that shares memory with `buf`, so every decoded `key` aliases the checkpoint buffer; the model's `Slice` is a copy. Nothing in this code writes to either buffer afterwards, so the difference is not observable here.
- Backward indexing (`min`), `batchSize` and batch indexing are not implemented by the code (TODOs at index.js:12-14), so they are not modelled.
- Storage of checkpoints, pause/resume and other features of later versions of the package are not part of this version's code.

## Findings

| source | as written | input that shows it | evidently intended | confidence | as-written member | corrected member |
|---|---|---|---|---|---|---|
| index.js:64-71 | The `get` callbacks read the function-scoped `var n` after the loop has ended, so every completion increments `_at[n]` of the last feed with work | Two feeds with one entry each and cursors at 0: feed 1's `max` becomes 2, past its length of 1, and feed 0's stays at 0. Feed 0's entry is fetched a second time on the next pass, and once feed 1 grows to two entries, its entry 1 is never indexed | Each completion increments the cursor of the feed it fetched from | high (not executed) | Passes.AsWrittenOvershoots, Passes.AsWrittenSkipsLaterEntry | Passes.CatchUp |
| index.js:64-68 | The node id is built from `feeds[n]` and `seq` after the loop has ended, so every node of a pass gets the last fetch's key and sequence number | The same two feeds with distinct keys k0 and k1: feed 0's entry 0 is labelled `hex(k1)@0` | Each node is labelled with its own feed's key and sequence number | high (not executed) | Indexer.AsWrittenMislabels | Indexer.CorrectedStampsOwnId |
| index.js:56-58,74-76 | A newly seen feed gets `min = length`; any positive `min` sets `didWork`, but nothing ever lowers `min` | A new indexer whose first pass sees one feed with 3 entries: each pass finds no fetch but `min = 3`, reruns, and reaches the same state, so 'ready' is never emitted | Only started fetches count as work until backward indexing exists | medium (not executed) | Indexer.AsWrittenRerunsForever | Passes.CatchUp |

=== FILE: bytes.dfy ===
/**
 * Node Buffer primitives the checkpoint codec relies on: unsigned 32-bit
 * little-endian writes and reads, and the clamping `slice`.
 */
module Bytes {
  import opened Results

  type byte = b: int | 0 <= b < 256

  const U32_LIMIT: int := 0x1_0000_0000

  predicate IsU32(n: int) {
    0 <= n < U32_LIMIT
  }

  /** The only error the Buffer calls used here throw. */
  datatype Error = RangeError

  /** The four little-endian bytes of `n`. */
  function EncodeU32(n: int): (r: seq<byte>)
    requires IsU32(n)
    ensures |r| == 4
  {
    [n % 256, (n / 256) % 256, (n / 65536) % 256, n / 16777216]
  }

  /** The number four little-endian bytes stand for. */
  function DecodeU32(b: seq<byte>): (n: int)
    requires |b| == 4
    ensures IsU32(n)
  {
    b[0] as int + 256 * (b[1] as int) + 65536 * (b[2] as int) + 16777216 * (b[3] as int)
  }

  lemma DecodeEncode(n: int)
    requires IsU32(n)
    ensures DecodeU32(EncodeU32(n)) == n
  {
    var b := EncodeU32(n);
    var q1 := n / 256;
    var q2 := q1 / 256;
    assert n == b[0] + 256 * q1;
    assert q1 == b[1] + 256 * q2;
    assert n / 65536 == q2;
    assert q2 == b[2] + 256 * (n / 16777216);
  }

  lemma EncodeDecode(b: seq<byte>)
    requires |b| == 4
    ensures EncodeU32(DecodeU32(b)) == b
  {
    var n := DecodeU32(b);
    assert n % 256 == b[0] && n / 256 == b[1] as int + 256 * (b[2] as int) + 65536 * (b[3] as int);
    var q1 := n / 256;
    assert q1 % 256 == b[1] && q1 / 256 == b[2] as int + 256 * (b[3] as int);
    assert n / 65536 == q1 / 256;
    var q2 := q1 / 256;
    assert q2 % 256 == b[2] && q2 / 256 == b[3];
    assert n / 16777216 == q2 / 256;
  }

  /** Two numbers with the same encoding are equal: the encoding loses nothing. */
  lemma EncodeInjective(m: int, n: int)
    requires IsU32(m) && IsU32(n)
    ensures EncodeU32(m) == EncodeU32(n) <==> m == n
  {
    if EncodeU32(m) == EncodeU32(n) {
      DecodeEncode(m);
      DecodeEncode(n);
    }
  }

  /** `int32buf(n)`: `Buffer.alloc(4)` then `writeUInt32LE(n, 0)`, which throws outside the u32 range. */
  function Int32Buf(n: int): (r: Result<seq<byte>, Error>)
    ensures r.Success? <==> IsU32(n)
    ensures r.Success? ==> |r.value| == 4 && DecodeU32(r.value) == n
  {
    if IsU32(n) then
      DecodeEncode(n);
      Success(EncodeU32(n))
    else
      Failure(RangeError)
  }

  /** `buf.readUInt32LE(off)`: throws unless all four bytes lie inside the buffer. */
  function ReadUInt32LE(buf: seq<byte>, off: int): (r: Result<int, Error>)
    ensures r.Success? <==> 0 <= off && off + 4 <= |buf|
    ensures r.Success? ==> IsU32(r.value)
  {
    if 0 <= off && off + 4 <= |buf| then Success(DecodeU32(buf[off..off + 4])) else Failure(RangeError)
  }

  /** A value written with `writeUInt32LE` anywhere inside a buffer reads back unchanged. */
  lemma ReadAfterWrite(pre: seq<byte>, n: int, post: seq<byte>)
    requires IsU32(n)
    ensures ReadUInt32LE(pre + EncodeU32(n) + post, |pre|) == Success(n)
  {
    var buf := pre + EncodeU32(n) + post;
    assert buf[|pre|..|pre| + 4] == EncodeU32(n);
    DecodeEncode(n);
  }

  /** `buf.slice(start, end)` for non-negative bounds: both ends are clamped to the length. */
  function Slice(buf: seq<byte>, start: nat, end: nat): (r: seq<byte>)
    ensures end <= |buf| && start <= end ==> r == buf[start..end]
    ensures |buf| < end && start <= |buf| ==> r == buf[start..]
    ensures |r| == if start <= end && start <= |buf| then (if end <= |buf| then end else |buf|) - start else 0
  {
    var e := if end <= |buf| then end else |buf|;
    if start <= e then buf[start..e] else []
  }
}

=== FILE: dicts.dfy ===
/**
 * A JavaScript object used as a dictionary with string keys: an
 * insertion-ordered list of (name, value) properties. Assigning to an
 * existing name replaces its value in place; a new name goes to the end.
 */
module Dicts {
  import opened Results

  type Dict<A> = seq<(string, A)>

  predicate HasName<A>(d: Dict<A>, k: string) {
    exists i :: 0 <= i < |d| && d[i].0 == k
  }

  /** No property name occurs twice; every object built by `Put` alone keeps this. */
  predicate UniqueNames<A>(d: Dict<A>) {
    forall i, j :: 0 <= i < j < |d| ==> d[i].0 != d[j].0
  }

  /** `dict[k]`, `None` standing for `undefined`. */
  function Get<A>(d: Dict<A>, k: string): (r: Option<A>)
    ensures r.None? <==> !HasName(d, k)
  {
    if |d| == 0 then None
    else if d[0].0 == k then Some(d[0].1)
    else
      assert forall i :: 1 <= i < |d| ==> d[i] == d[1..][i - 1];
      Get(d[1..], k)
  }

  /** In an object without repeated names, each property is what `Get` returns for its name. */
  lemma {:induction false} GetAt<A>(d: Dict<A>, i: nat)
    requires UniqueNames(d) && i < |d|
    ensures Get(d, d[i].0) == Some(d[i].1)
  {
    if i > 0 {
      assert d[i] == d[1..][i - 1];
      GetAt(d[1..], i - 1);
    }
  }

  /** `dict[k] = v`. */
  function Put<A>(d: Dict<A>, k: string, v: A): (r: Dict<A>)
    ensures Get(r, k) == Some(v)
    ensures forall k' :: k' != k ==> Get(r, k') == Get(d, k')
    ensures HasName(d, k) ==> |r| == |d| && forall i :: 0 <= i < |d| ==> r[i].0 == d[i].0
    ensures !HasName(d, k) ==> r == d + [(k, v)]
  {
    if |d| == 0 then [(k, v)]
    else if d[0].0 == k then
      var r := [(k, v)] + d[1..];
      assert r[1..] == d[1..];
      r
    else
      var tail := d[1..];
      assert forall i :: 1 <= i < |d| ==> d[i] == tail[i - 1];
      var rest := Put(tail, k, v);
      var r := [d[0]] + rest;
      assert r[1..] == rest;
      r
  }

  /** Assignment never repeats a property name. */
  lemma PutKeepsUnique<A>(d: Dict<A>, k: string, v: A)
    requires UniqueNames(d)
    ensures UniqueNames(Put(d, k, v))
  {
    var r := Put(d, k, v);
    if !HasName(d, k) {
      assert forall i :: 0 <= i < |d| ==> d[i].0 != k;
    }
  }

  /** `values(dict)`: the property values in insertion order. */
  function Values<A>(d: Dict<A>): (vs: seq<A>)
    ensures |vs| == |d|
    ensures UniqueNames(d) ==> forall i :: 0 <= i < |d| ==> Get(d, d[i].0) == Some(vs[i])
  {
    var vs := seq(|d|, i requires 0 <= i < |d| => d[i].1);
    assert UniqueNames(d) ==> forall i :: 0 <= i < |d| ==> Get(d, d[i].0) == Some(vs[i]) by {
      if UniqueNames(d) {
        forall i | 0 <= i < |d| {
          GetAt(d, i);
        }
      }
    }
    vs
  }
}

=== FILE: indexer.dfy ===
/**
 * The indexer of index.js as an explicit state machine: construction, the
 * `_run` trigger, the completion of each started fetch-and-batch, the
 * `pending`/`done()` countdown that ends a pass, and `ready(fn)`.
 *
 * A pass is started by `Run`, which performs the scan and the trailing
 * `done()` call. Each started `feeds[n].get` later completes through
 * `Complete`, in any order: the node is handed to `batch`, its callback
 * increments a cursor and calls `done()`. When the countdown reaches zero
 * `_ready` is set again and the pass either asks for another run or emits
 * 'ready'. `Policy` selects the completion behaviour: the code's, where the
 * callbacks read the loop's last `n` and `seq`, or the corrected one.
 */
module Indexer {
  import opened Results
  import opened Text
  import opened Scan
  import opened Passes

  /** Which of the required options were supplied to the constructor. */
  datatype Options = Options(hasCores: bool, hasBatch: bool)

  datatype ConfigError = MissingOpts | MissingCores | MissingBatch

  /** A started `feeds[i].get`: the entry it fetches, the cursor its completion increments, the id it stamps. */
  datatype Callback = Callback(fetch: Fetch, credit: nat, id: string)

  /** A node handed to `batch`: the entry fetched and the `id` stamped on it. */
  datatype Node = Node(fetch: Fetch, id: string)

  /**
   * `_at`, `_ready`, the current pass's `pending` count and `didWork`, the
   * callbacks still outstanding, and how many `ready(fn)` callers wait for
   * 'ready'.
   */
  datatype Instance = Instance(at: seq<Cursor>, ready: bool, pending: nat, didWork: bool, callbacks: seq<Callback>, waiting: nat)

  /** What the end of a step does: nothing (a dropped trigger, or a pass still waiting), run again, or emit 'ready'. */
  datatype Effect = Dropped | Waiting | Rerun | EmitReady

  /** A step's new state, the fetches it started, the nodes it handed to `batch`, its effect, and how many waiting `ready` callbacks it released. */
  datatype Step = Step(state: Instance, fetches: seq<Fetch>, batch: seq<Node>, effect: Effect, released: nat)

  datatype Policy = AsWritten | Corrected

  /** Between steps: `pending` counts the outstanding callbacks, and a pass is in flight exactly while `_ready` is false. */
  predicate Valid(s: Instance) {
    && s.pending == |s.callbacks|
    && (s.ready <==> s.pending == 0)
    && (|s.callbacks| > 0 ==> s.didWork)
    && forall cb :: cb in s.callbacks ==> cb.credit < |s.at|
  }

  /** `Indexer(opts)`: each missing required option throws, checked in the order opts, cores, batch. */
  function New(opts: Option<Options>): (r: Result<Instance, ConfigError>)
    ensures r.Success? <==> opts.Some? && opts.value.hasCores && opts.value.hasBatch
    ensures r.Failure? && opts.None? ==> r.error == MissingOpts
    ensures r.Failure? && opts.Some? && !opts.value.hasCores ==> r.error == MissingCores
    ensures r.Failure? && opts.Some? && opts.value.hasCores ==> r.error == MissingBatch
    ensures r.Success? ==> Valid(r.value) && r.value.ready && r.value.at == [] && r.value.waiting == 0
  {
    if opts.None? then Failure(MissingOpts)
    else if !opts.value.hasCores then Failure(MissingCores)
    else if !opts.value.hasBatch then Failure(MissingBatch)
    else Success(Instance([], true, 0, false, [], 0))
  }

  /** `ready(fn)`: `fn` runs at once when no pass is in flight, and otherwise waits for the next 'ready'. */
  function ReadyCall(s: Instance): (r: (Instance, bool))
    ensures r.1 <==> s.ready
    ensures r.1 ==> r.0 == s
    ensures !r.1 ==> r.0 == s.(waiting := s.waiting + 1)
  {
    if s.ready then (s, true) else (s.(waiting := s.waiting + 1), false)
  }

  /** Every fetch in the list names a feed below `n`. */
  predicate FetchesBelow(fetches: seq<Fetch>, n: nat) {
    forall j :: 0 <= j < |fetches| ==> fetches[j].feed < n
  }

  /**
   * The callbacks a scan starts. As written, every callback reads the
   * loop's final `n` and `seq`: all credit the last feed with work and stamp
   * its id; corrected, each credits and stamps its own fetch.
   */
  function Callbacks(sc: ScanResult, feeds: seq<Feed>, policy: Policy): (cbs: seq<Callback>)
    requires FetchesBelow(sc.fetches, |feeds|)
    ensures |cbs| == |sc.fetches|
    ensures forall j :: 0 <= j < |cbs| ==> cbs[j].fetch == sc.fetches[j]
    ensures policy == Corrected ==> forall j :: 0 <= j < |cbs| ==>
      cbs[j].credit == sc.fetches[j].feed && cbs[j].id == EntryId(feeds[sc.fetches[j].feed].key, sc.fetches[j].seqNo)
    ensures policy == AsWritten && |cbs| > 0 ==> forall j :: 0 <= j < |cbs| ==>
      cbs[j].credit == CapturedFeed(sc) && cbs[j].id == EntryId(feeds[CapturedFeed(sc)].key, sc.fetches[|cbs| - 1].seqNo)
  {
    if policy == Corrected then
      seq(|sc.fetches|, j requires 0 <= j < |sc.fetches| =>
        var f := sc.fetches[j];
        Callback(f, f.feed, EntryId(feeds[f.feed].key, f.seqNo)))
    else if |sc.fetches| == 0 then []
    else
      var last := sc.fetches[|sc.fetches| - 1];
      seq(|sc.fetches|, j requires 0 <= j < |sc.fetches| =>
        Callback(sc.fetches[j], last.feed, EntryId(feeds[last.feed].key, last.seqNo)))
  }

  /** The fetches of a scan are for feeds that exist and have cursors. */
  lemma ScanFetchesBelow(at: seq<Cursor>, feeds: seq<Feed>)
    ensures FetchesBelow(ScanFeeds(at, feeds).fetches, |feeds|)
    ensures FetchesBelow(ScanFeeds(at, feeds).fetches, |ScanFeeds(at, feeds).at|)
  {
    var sc := ScanFeeds(at, feeds);
    FetchesHaveCursors(at, feeds);
    forall j | 0 <= j < |sc.fetches|
      ensures sc.fetches[j].feed < |feeds| && sc.fetches[j].feed < |sc.at|
    {
      assert sc.fetches[j] in sc.fetches;
    }
  }

  /** Every callback of a scan credits a cursor that exists. */
  lemma CallbacksCredit(sc: ScanResult, feeds: seq<Feed>, policy: Policy)
    requires FetchesBelow(sc.fetches, |feeds|) && FetchesBelow(sc.fetches, |sc.at|)
    ensures forall cb :: cb in Callbacks(sc, feeds, policy) ==> cb.credit < |sc.at|
  {
    var cbs := Callbacks(sc, feeds, policy);
    forall cb | cb in cbs
      ensures cb.credit < |sc.at|
    {
      var j :| 0 <= j < |cbs| && cbs[j] == cb;
    }
  }

  /** `done()`: count one completion down; at zero set `_ready` and either run again or emit 'ready'. */
  function Done(s: Instance, fetches: seq<Fetch>, batch: seq<Node>): (r: Step)
    requires s.pending > 0
    ensures r.fetches == fetches && r.batch == batch
    ensures r.state.at == s.at && r.state.callbacks == s.callbacks && r.state.didWork == s.didWork
    ensures r.state.pending == s.pending - 1
    ensures s.pending == 1 ==> r.state.ready
    ensures s.pending > 1 ==> r.effect == Waiting && r.state.ready == s.ready
    ensures s.pending == 1 ==> r.effect == (if s.didWork then Rerun else EmitReady)
    ensures r.effect == EmitReady ==> r.released == s.waiting && r.state.waiting == 0
    ensures r.effect != EmitReady ==> r.released == 0 && r.state.waiting == s.waiting
  {
    var p := s.pending - 1;
    if p > 0 then Step(s.(pending := p), fetches, batch, Waiting, 0)
    else if s.didWork then Step(s.(pending := 0, ready := true), fetches, batch, Rerun, 0)
    else Step(s.(pending := 0, ready := true, waiting := 0), fetches, batch, EmitReady, s.waiting)
  }

  /**
   * `_run()`: dropped while a pass is in flight; otherwise scan, start the
   * fetches with `pending` at one more than their number, and release the
   * extra count with the trailing `done()`.
   */
  function Run(s: Instance, feeds: seq<Feed>, policy: Policy): (r: Step)
    requires Valid(s)
    ensures Valid(r.state)
    ensures r.batch == []
    ensures !s.ready ==> r == Step(s, [], [], Dropped, 0)
    ensures s.ready ==> r.fetches == ScanFeeds(s.at, feeds).fetches && r.state.at == ScanFeeds(s.at, feeds).at
    ensures s.ready ==> (r.state.ready <==> |r.fetches| == 0)
    ensures s.ready && |r.fetches| > 0 ==> r.effect == Waiting && r.state.pending == |r.fetches|
    ensures s.ready && |r.fetches| == 0 ==> r.effect == (if r.state.didWork then Rerun else EmitReady)
    ensures s.ready ==> (r.state.didWork <==> if policy == AsWritten then ScanFeeds(s.at, feeds).didWork else |r.fetches| > 0)
    ensures s.ready ==> r.state.waiting == s.waiting || r.effect == EmitReady
    ensures r.effect == EmitReady ==> r.released == s.waiting && r.state.waiting == 0
    ensures s.ready ==> FetchesBelow(r.fetches, |feeds|) && r.state.callbacks == Callbacks(ScanFeeds(s.at, feeds), feeds, policy)
  {
    if !s.ready then Step(s, [], [], Dropped, 0)
    else
      var sc := ScanFeeds(s.at, feeds);
      ScanFetchesBelow(s.at, feeds);
      var cbs := Callbacks(sc, feeds, policy);
      CallbacksCredit(sc, feeds, policy);
      var didWork := if policy == AsWritten then sc.didWork else |sc.fetches| > 0;
      Done(Instance(sc.at, false, 1 + |sc.fetches|, didWork, cbs, s.waiting), sc.fetches, [])
  }

  /**
   * The completion of outstanding callback `j`: its node goes to `batch`,
   * then one cursor's `max` goes up by one and `done()` runs. The pass
   * ends, and `_ready` comes back, only with the last outstanding callback.
   */
  function Complete(s: Instance, j: nat): (r: Step)
    requires Valid(s) && j < |s.callbacks|
    ensures Valid(r.state)
    ensures r.fetches == [] && r.batch == [Node(s.callbacks[j].fetch, s.callbacks[j].id)]
    ensures |r.state.at| == |s.at|
    ensures forall i :: 0 <= i < |s.at| ==>
      r.state.at[i].min == s.at[i].min && r.state.at[i].max == s.at[i].max + (if i == s.callbacks[j].credit then 1 else 0)
    ensures |r.state.callbacks| == |s.callbacks| - 1
    ensures r.state.ready <==> |s.callbacks| == 1
    ensures r.effect == if |s.callbacks| == 1 then Rerun else Waiting
    ensures r.state.callbacks == s.callbacks[..j] + s.callbacks[j + 1..]
    ensures r.state.waiting == s.waiting && r.released == 0
  {
    var cb := s.callbacks[j];
    var rest := s.callbacks[..j] + s.callbacks[j + 1..];
    assert forall c :: c in rest ==> c in s.callbacks;
    Done(s.(at := Bump(s.at, cb.credit, 1), callbacks := rest), [], [Node(cb.fetch, cb.id)])
  }

  // ---------------------------------------------------------------------
  // A whole pass: the trigger and every completion it waits for

  /** How many of the callbacks credit cursor `i`. */
  function Credits(cbs: seq<Callback>, i: nat): nat {
    if |cbs| == 0 then 0 else (if cbs[0].credit == i then 1 else 0) + Credits(cbs[1..], i)
  }

  /** Where a drain ends: the state, the nodes handed to `batch` in order, and the last step's effect and releases. */
  datatype Drained = Drained(state: Instance, batch: seq<Node>, effect: Effect, released: nat)

  /**
   * Complete the outstanding callbacks, first to last; `effect` and
   * `released` are those of the step that led to `s`. Each cursor ends
   * moved by the number of callbacks that credit it.
   */
  function Drain(s: Instance, effect: Effect, released: nat): (r: Drained)
    requires Valid(s)
    decreases |s.callbacks|
    ensures Valid(r.state) && (|s.callbacks| > 0 ==> r.state.ready)
    ensures |r.state.at| == |s.at|
    ensures |r.batch| == |s.callbacks|
    ensures |s.callbacks| > 0 ==> r.effect == Rerun && r.released == 0 && r.state.waiting == s.waiting
    ensures |s.callbacks| == 0 ==> r == Drained(s, [], effect, released)
    ensures r.state.didWork == s.didWork
  {
    if |s.callbacks| == 0 then Drained(s, [], effect, released)
    else
      var st := Complete(s, 0);
      var rest := Drain(st.state, st.effect, st.released);
      Drained(rest.state, st.batch + rest.batch, rest.effect, rest.released)
  }

  /** Draining moves each cursor by the number of outstanding callbacks that credit it. */
  lemma {:induction false} DrainCursors(s: Instance, effect: Effect, released: nat, i: nat)
    requires Valid(s) && i < |s.at|
    decreases |s.callbacks|
    ensures Drain(s, effect, released).state.at[i] == Cursor(s.at[i].min, s.at[i].max + Credits(s.callbacks, i))
  {
    if |s.callbacks| > 0 {
      var st := Complete(s, 0);
      assert st.state.callbacks == s.callbacks[1..];
      DrainCursors(st.state, st.effect, st.released, i);
    }
  }

  /** Draining hands each outstanding callback's node to `batch`, in order. */
  lemma {:induction false} DrainBatch(s: Instance, effect: Effect, released: nat, j: nat)
    requires Valid(s) && j < |s.callbacks|
    decreases |s.callbacks|
    ensures Drain(s, effect, released).batch[j] == Node(s.callbacks[j].fetch, s.callbacks[j].id)
  {
    var st := Complete(s, 0);
    var rest := Drain(st.state, st.effect, st.released);
    assert Drain(s, effect, released).batch == st.batch + rest.batch;
    if j > 0 {
      DrainBatch(st.state, st.effect, st.released, j - 1);
      assert st.state.callbacks[j - 1] == s.callbacks[j];
    }
  }

  // ---------------------------------------------------------------------
  // Completions in any order

  /**
   * An order in which `k` outstanding callbacks complete: step `t` picks
   * one of the `k - t` callbacks still outstanding, by its index among
   * them. Every order the callbacks of a pass can return in is one of these.
   */
  predicate Schedule(order: seq<nat>, k: nat) {
    |order| == k && forall t :: 0 <= t < k ==> order[t] < k - t
  }

  /** Complete the outstanding callbacks in the order `order` picks them. */
  function DrainIn(s: Instance, order: seq<nat>, effect: Effect, released: nat): (r: Drained)
    requires Valid(s) && Schedule(order, |s.callbacks|)
    decreases |order|
    ensures Valid(r.state) && |r.state.at| == |s.at| && r.state.didWork == s.didWork
    ensures |s.callbacks| > 0 ==> r.state.ready && r.effect == Rerun && r.released == 0 && r.state.waiting == s.waiting
    ensures |s.callbacks| == 0 ==> r == Drained(s, [], effect, released)
  {
    if |order| == 0 then Drained(s, [], effect, released)
    else
      var st := Complete(s, order[0]);
      assert forall t :: 0 <= t < |order| - 1 ==> order[1..][t] == order[t + 1];
      var rest := DrainIn(st.state, order[1..], st.effect, st.released);
      Drained(rest.state, st.batch + rest.batch, rest.effect, rest.released)
  }

  /** The nodes of the callbacks, in callback order. */
  function Nodes(cbs: seq<Callback>): (ns: seq<Node>)
    ensures |ns| == |cbs| && forall j :: 0 <= j < |cbs| ==> ns[j] == Node(cbs[j].fetch, cbs[j].id)
  {
    seq(|cbs|, j requires 0 <= j < |cbs| => Node(cbs[j].fetch, cbs[j].id))
  }

  /** Removing callback `j` removes its credit from cursor `i`'s count. */
  lemma {:induction false} CreditsRemove(cbs: seq<Callback>, j: nat, i: nat)
    requires j < |cbs|
    ensures Credits(cbs, i) == (if cbs[j].credit == i then 1 else 0) + Credits(cbs[..j] + cbs[j + 1..], i)
  {
    if j == 0 {
      assert cbs[..0] + cbs[1..] == cbs[1..];
    } else {
      var rest := cbs[1..];
      CreditsRemove(rest, j - 1, i);
      var without := cbs[..j] + cbs[j + 1..];
      assert without[0] == cbs[0];
      assert without[1..] == rest[..j - 1] + rest[j..];
    }
  }

  /** In any completion order, each cursor ends moved by the number of callbacks that credit it. */
  lemma {:induction false} DrainInCursors(s: Instance, order: seq<nat>, effect: Effect, released: nat, i: nat)
    requires Valid(s) && Schedule(order, |s.callbacks|) && i < |s.at|
    decreases |order|
    ensures DrainIn(s, order, effect, released).state.at[i] == Cursor(s.at[i].min, s.at[i].max + Credits(s.callbacks, i))
  {
    if |order| > 0 {
      var j := order[0];
      var st := Complete(s, j);
      assert forall t :: 0 <= t < |order| - 1 ==> order[1..][t] == order[t + 1];
      DrainInCursors(st.state, order[1..], st.effect, st.released, i);
      CreditsRemove(s.callbacks, j, i);
    }
  }

  /** Taking callback `j` out takes exactly its node out of the multiset of nodes. */
  lemma NodesRemove(cbs: seq<Callback>, j: nat)
    requires j < |cbs|
    ensures multiset(Nodes(cbs)) == multiset{Node(cbs[j].fetch, cbs[j].id)} + multiset(Nodes(cbs[..j] + cbs[j + 1..]))
  {
    var ns := Nodes(cbs);
    assert ns == ns[..j] + [ns[j]] + ns[j + 1..];
    assert Nodes(cbs[..j] + cbs[j + 1..]) == ns[..j] + ns[j + 1..];
  }

  /** In any completion order, `batch` receives every outstanding callback's node exactly once. */
  lemma {:induction false} DrainInBatch(s: Instance, order: seq<nat>, effect: Effect, released: nat)
    requires Valid(s) && Schedule(order, |s.callbacks|)
    decreases |order|
    ensures multiset(DrainIn(s, order, effect, released).batch) == multiset(Nodes(s.callbacks))
  {
    if |order| > 0 {
      var j := order[0];
      var st := Complete(s, j);
      var tail := order[1..];
      assert forall t :: 0 <= t < |order| - 1 ==> tail[t] == order[t + 1];
      var rest := DrainIn(st.state, tail, st.effect, st.released);
      assert DrainIn(s, order, effect, released).batch == st.batch + rest.batch;
      DrainInBatch(st.state, tail, st.effect, st.released);
      NodesRemove(s.callbacks, j);
    }
  }

  /** Any completion order leaves the same cursors as completing first to last. */
  lemma DrainInSameCursors(s: Instance, order: seq<nat>, effect: Effect, released: nat)
    requires Valid(s) && Schedule(order, |s.callbacks|)
    ensures DrainIn(s, order, effect, released).state.at == Drain(s, effect, released).state.at
  {
    var a, b := DrainIn(s, order, effect, released).state.at, Drain(s, effect, released).state.at;
    forall i | 0 <= i < |s.at|
      ensures a[i] == b[i]
    {
      DrainInCursors(s, order, effect, released, i);
      DrainCursors(s, effect, released, i);
    }
  }

  /**
   * The order in which the callbacks complete does not matter: any order
   * ends in the same state, effect and releases as completing them first
   * to last, and hands `batch` the same nodes.
   */
  lemma DrainOrderIrrelevant(s: Instance, order: seq<nat>, effect: Effect, released: nat)
    requires Valid(s) && Schedule(order, |s.callbacks|)
    ensures var a, b := DrainIn(s, order, effect, released), Drain(s, effect, released);
      && a.state == b.state && a.effect == b.effect && a.released == b.released
      && multiset(a.batch) == multiset(b.batch)
  {
    var a, b := DrainIn(s, order, effect, released), Drain(s, effect, released);
    if |s.callbacks| > 0 {
      DrainInSameCursors(s, order, effect, released);
      assert a.state.callbacks == [] == b.state.callbacks;
      assert a.state == Instance(b.state.at, true, 0, s.didWork, [], s.waiting) == b.state;
    }
    DrainInSameNodes(s, order, effect, released);
  }

  /** Any completion order hands `batch` the same nodes as completing first to last. */
  lemma DrainInSameNodes(s: Instance, order: seq<nat>, effect: Effect, released: nat)
    requires Valid(s) && Schedule(order, |s.callbacks|)
    ensures multiset(DrainIn(s, order, effect, released).batch) == multiset(Drain(s, effect, released).batch)
  {
    var b := Drain(s, effect, released).batch;
    DrainInBatch(s, order, effect, released);
    forall j | 0 <= j < |s.callbacks|
      ensures b[j] == Nodes(s.callbacks)[j]
    {
      DrainBatch(s, effect, released, j);
    }
    assert b == Nodes(s.callbacks);
  }


  /**
   * `_run()` on a ready indexer, followed by the completion of every fetch
   * it started. Each fetch of the scan reaches `batch` once, in scan order;
   * as written all of them carry the id of the last fetch, corrected each
   * carries its own.
   */
  function FullPass(s: Instance, feeds: seq<Feed>, policy: Policy): (r: Drained)
    requires Valid(s) && s.ready
    ensures Valid(r.state) && r.state.ready
    ensures |r.batch| == |ScanFeeds(s.at, feeds).fetches|
    ensures forall j :: 0 <= j < |r.batch| ==> r.batch[j].fetch == ScanFeeds(s.at, feeds).fetches[j]
  {
    var sc := ScanFeeds(s.at, feeds);
    var st := Run(s, feeds, policy);
    var r := Drain(st.state, st.effect, st.released);
    forall j | 0 <= j < |r.batch|
      ensures r.batch[j].fetch == sc.fetches[j]
    {
      DrainBatch(st.state, st.effect, st.released, j);
    }
    r
  }

  /** The nodes of a full pass carry the ids of the callbacks the scan started, in order. */
  lemma FullPassIds(s: Instance, feeds: seq<Feed>, policy: Policy, j: nat)
    requires Valid(s) && s.ready
    ensures FetchesBelow(ScanFeeds(s.at, feeds).fetches, |feeds|)
    ensures j < |FullPass(s, feeds, policy).batch| ==>
      FullPass(s, feeds, policy).batch[j].id == Callbacks(ScanFeeds(s.at, feeds), feeds, policy)[j].id
  {
    ScanFetchesBelow(s.at, feeds);
    var st := Run(s, feeds, policy);
    if j < |st.state.callbacks| {
      DrainBatch(st.state, st.effect, st.released, j);
    }
  }

  /** Corrected, every node handed to `batch` is stamped with its own feed's key and sequence number. */
  lemma CorrectedStampsOwnId(s: Instance, feeds: seq<Feed>)
    requires Valid(s) && s.ready
    ensures var b := FullPass(s, feeds, Corrected).batch;
      forall j :: 0 <= j < |b| ==> b[j].fetch.feed < |feeds| && b[j].id == EntryId(feeds[b[j].fetch.feed].key, b[j].fetch.seqNo)
  {
    var b := FullPass(s, feeds, Corrected).batch;
    forall j | 0 <= j < |b|
      ensures b[j].fetch.feed < |feeds| && b[j].id == EntryId(feeds[b[j].fetch.feed].key, b[j].fetch.seqNo)
    {
      FullPassIds(s, feeds, Corrected, j);
    }
  }

  /** As written, every node handed to `batch` is stamped with the key and sequence number of the pass's last fetch. */
  lemma AsWrittenStampsLastId(s: Instance, feeds: seq<Feed>)
    requires Valid(s) && s.ready
    ensures var b := FullPass(s, feeds, AsWritten).batch;
      forall j :: 0 <= j < |b| ==> b[|b| - 1].fetch.feed < |feeds| && b[j].id == EntryId(feeds[b[|b| - 1].fetch.feed].key, b[|b| - 1].fetch.seqNo)
  {
    var sc := ScanFeeds(s.at, feeds);
    var b := FullPass(s, feeds, AsWritten).batch;
    ScanFetchesBelow(s.at, feeds);
    if |b| > 0 {
      var last := sc.fetches[|b| - 1];
      assert b[|b| - 1].fetch == last;
      var cbs := Callbacks(sc, feeds, AsWritten);
      assert forall j :: 0 <= j < |cbs| ==> cbs[j].id == EntryId(feeds[last.feed].key, last.seqNo);
      forall j | 0 <= j < |b|
        ensures b[j].id == EntryId(feeds[last.feed].key, last.seqNo)
      {
        FullPassIds(s, feeds, AsWritten, j);
      }
    }
  }

  /** Callbacks that credit the feeds of `log`, position by position, credit feed `i` once per fetch from it. */
  lemma {:induction false} CreditsOfFetches(cbs: seq<Callback>, log: seq<Fetch>, i: nat)
    requires |cbs| == |log| && forall j :: 0 <= j < |cbs| ==> cbs[j].credit == log[j].feed
    ensures Credits(cbs, i) == |Delivered(log, i)|
  {
    if |cbs| > 0 {
      CreditsOfFetches(cbs[1..], log[1..], i);
    }
  }

  /** Callbacks that all credit feed `n` credit it once each and no other feed at all. */
  lemma {:induction false} CreditsConstant(cbs: seq<Callback>, n: nat, i: nat)
    requires forall j :: 0 <= j < |cbs| ==> cbs[j].credit == n
    ensures Credits(cbs, i) == if i == n then |cbs| else 0
  {
    if |cbs| > 0 {
      CreditsConstant(cbs[1..], n, i);
    }
  }

  /** A full pass moves each cursor of the scan by the number of its callbacks that credit it, and ends ready. */
  lemma FullPassCursors(s: Instance, feeds: seq<Feed>, policy: Policy, i: nat)
    requires Valid(s) && s.ready
    ensures |FullPass(s, feeds, policy).state.at| == |ScanFeeds(s.at, feeds).at|
    ensures i < |ScanFeeds(s.at, feeds).at| ==>
      FullPass(s, feeds, policy).state.at[i]
        == Cursor(ScanFeeds(s.at, feeds).at[i].min, ScanFeeds(s.at, feeds).at[i].max + Credits(Run(s, feeds, policy).state.callbacks, i))
  {
    var st := Run(s, feeds, policy);
    if i < |st.state.at| {
      DrainCursors(st.state, st.effect, st.released, i);
    }
  }

  /** A full pass ends ready, and reruns exactly when the pass recorded `didWork`, releasing the waiters otherwise. */
  lemma FullPassEffect(s: Instance, feeds: seq<Feed>, policy: Policy)
    requires Valid(s) && s.ready
    ensures var r := FullPass(s, feeds, policy);
      && r.state.ready
      && r.effect == (if Run(s, feeds, policy).state.didWork then Rerun else EmitReady)
      && (r.effect == EmitReady ==> r.released == s.waiting && r.state.waiting == 0)
  {
    var st := Run(s, feeds, policy);
    var r := Drain(st.state, st.effect, st.released);
  }

  /**
   * The event-level pass of the code, trigger to last completion, ends
   * where `PassAsWritten` says: the same cursors, 'ready' back, and a
   * rerun exactly when `didWork` was set; otherwise 'ready' is emitted and
   * every waiting `ready` callback released.
   */
  lemma AsWrittenPassMatches(s: Instance, feeds: seq<Feed>)
    requires Valid(s) && s.ready
    ensures var r := FullPass(s, feeds, AsWritten);
      && r.state.ready
      && r.state.at == PassAsWritten(s.at, feeds).at
      && r.effect == (if PassAsWritten(s.at, feeds).didWork then Rerun else EmitReady)
      && (r.effect == EmitReady ==> r.released == s.waiting && r.state.waiting == 0)
  {
    var sc := ScanFeeds(s.at, feeds);
    var r := FullPass(s, feeds, AsWritten);
    FullPassEffect(s, feeds, AsWritten);
    FullPassCursors(s, feeds, AsWritten, 0);
    forall i | 0 <= i < |sc.at|
      ensures r.state.at[i] == PassAsWritten(s.at, feeds).at[i]
    {
      AsWrittenCursor(s, feeds, i);
    }
  }


  /** As written, cursor `i` ends moved by the whole number of fetches if it is the last one with work, and not at all otherwise. */
  lemma AsWrittenCursor(s: Instance, feeds: seq<Feed>, i: nat)
    requires Valid(s) && s.ready && i < |ScanFeeds(s.at, feeds).at|
    ensures FullPass(s, feeds, AsWritten).state.at[i] == PassAsWritten(s.at, feeds).at[i]
  {
    var sc := ScanFeeds(s.at, feeds);
    FullPassCursors(s, feeds, AsWritten, i);
    if |sc.fetches| > 0 {
      FetchesHaveCursors(s.at, feeds);
      assert sc.fetches[|sc.fetches| - 1] in sc.fetches;
      CreditedBump(sc.at, Callbacks(sc, feeds, AsWritten), CapturedFeed(sc), i);
    }
  }

  /** Callbacks that all credit feed `n` move cursor `n` by their number and leave the others alone. */
  lemma CreditedBump(c: seq<Cursor>, cbs: seq<Callback>, n: nat, i: nat)
    requires n < |c| && i < |c|
    requires forall j :: 0 <= j < |cbs| ==> cbs[j].credit == n
    ensures Cursor(c[i].min, c[i].max + Credits(cbs, i)) == Bump(c, n, |cbs|)[i]
  {
    CreditsConstant(cbs, n, i);
  }

  /**
   * With each callback crediting its own fetch, the event-level pass ends
   * where `PassFixed` says: every lagging cursor one entry further on, and
   * a rerun exactly when some fetch was started.
   */
  lemma CorrectedPassMatches(s: Instance, feeds: seq<Feed>)
    requires Valid(s) && s.ready
    ensures var r := FullPass(s, feeds, Corrected);
      && r.state.ready
      && r.state.at == PassFixed(s.at, feeds).at
      && r.effect == (if PassFixed(s.at, feeds).didWork then Rerun else EmitReady)
      && (r.effect == EmitReady ==> r.released == s.waiting && r.state.waiting == 0)
  {
    var sc := ScanFeeds(s.at, feeds);
    var r := FullPass(s, feeds, Corrected);
    FullPassEffect(s, feeds, Corrected);
    FullPassCursors(s, feeds, Corrected, 0);
    forall i | 0 <= i < |sc.at|
      ensures r.state.at[i] == Advance(sc.at, feeds)[i]
    {
      CorrectedCursor(s, feeds, i);
    }
  }

  /** Corrected, cursor `i` ends one entry further on exactly when its feed lagged at the scan. */
  lemma CorrectedCursor(s: Instance, feeds: seq<Feed>, i: nat)
    requires Valid(s) && s.ready && i < |ScanFeeds(s.at, feeds).at|
    ensures FullPass(s, feeds, Corrected).state.at[i] == Advance(ScanFeeds(s.at, feeds).at, feeds)[i]
  {
    var sc := ScanFeeds(s.at, feeds);
    FullPassCursors(s, feeds, Corrected, i);
    CreditedAdvance(sc.at, feeds, Callbacks(sc, feeds, Corrected), i);
  }

  /** Crediting each fetch of a scan to its own feed advances exactly the lagging cursors, by one. */
  lemma CreditedAdvance(c: seq<Cursor>, feeds: seq<Feed>, cbs: seq<Callback>, i: nat)
    requires |feeds| <= |c| && i < |c|
    requires |cbs| == |WorkFrom(c, feeds, 0)|
    requires forall j :: 0 <= j < |cbs| ==> cbs[j].credit == WorkFrom(c, feeds, 0)[j].feed
    ensures Cursor(c[i].min, c[i].max + Credits(cbs, i)) == Advance(c, feeds)[i]
  {
    CreditsOfFetches(cbs, WorkFrom(c, feeds, 0), i);
    DeliveredWork(c, feeds, 0, i);
  }

  /**
   * Two fresh feeds with different keys, each one entry behind: as written,
   * the node fetched from the first feed is stamped with the second feed's
   * key, so its id names an entry it is not; corrected, it carries its own.
   */
  lemma AsWrittenMislabels(k0: seq<Bytes.byte>, k1: seq<Bytes.byte>)
    requires k0 != k1
    ensures var s := Instance([Cursor(0, 0), Cursor(0, 0)], true, 0, false, [], 0);
      var feeds := [Feed(k0, 1), Feed(k1, 1)];
      && FullPass(s, feeds, AsWritten).batch[0] == Node(Fetch(0, 0), EntryId(k1, 0))
      && EntryId(k1, 0) != EntryId(k0, 0)
      && FullPass(s, feeds, Corrected).batch[0] == Node(Fetch(0, 0), EntryId(k0, 0))
  {
    var at := [Cursor(0, 0), Cursor(0, 0)];
    var feeds := [Feed(k0, 1), Feed(k1, 1)];
    assert ScanFeeds(at, feeds).at == at;
    assert WorkFrom(at, feeds, 2) == [];
    assert WorkFrom(at, feeds, 1) == [Fetch(1, 0)];
    assert WorkFrom(at, feeds, 0) == [Fetch(0, 0), Fetch(1, 0)];
    EntryIdInjective(k1, 0, k0, 0);
  }

  /**
   * A new indexer given one feed that already holds entries: as written,
   * every pass asks for another and the next pass is the same, so 'ready'
   * is never emitted; corrected, the first pass emits it.
   */
  lemma AsWrittenRerunsForever(key: seq<Bytes.byte>, length: nat)
    requires length > 0
    ensures New(Some(Options(true, true))).Success?
    ensures var s := New(Some(Options(true, true))).value;
      var feeds := [Feed(key, length)];
      var r := FullPass(s, feeds, AsWritten);
      && r.effect == Rerun
      && FullPass(r.state, feeds, AsWritten) == r
      && FullPass(s, feeds, Corrected).effect == EmitReady
  {
    var s := New(Some(Options(true, true))).value;
    var feeds := [Feed(key, length)];
    FirstSeenNonEmptyFeedSpins(key, length);
    AsWrittenPassMatches(s, feeds);
    CorrectedPassMatches(s, feeds);
    var r := FullPass(s, feeds, AsWritten);
    AsWrittenPassMatches(r.state, feeds);
    assert ScanFeeds(r.state.at, feeds).fetches == [];
  }

  /** Completing two outstanding callbacks in either order leaves the same cursors, outstanding callbacks and effect. */
  lemma CompletionOrderIrrelevant(s: Instance, j: nat)
    requires Valid(s) && 0 < j < |s.callbacks|
    ensures var a := Complete(Complete(s, 0).state, j - 1);
      var b := Complete(Complete(s, j).state, 0);
      a.state == b.state && a.effect == b.effect
  {
    var a1 := Complete(s, 0).state;
    var b1 := Complete(s, j).state;
    assert a1.callbacks[j - 1] == s.callbacks[j];
    assert b1.callbacks[0] == s.callbacks[0];
    var a := Complete(a1, j - 1).state;
    var b := Complete(b1, 0).state;
    assert a.callbacks == s.callbacks[1..j] + s.callbacks[j + 1..];
    assert b.callbacks == s.callbacks[1..j] + s.callbacks[j + 1..];
  }

  /**
   * A pass whose fetches complete in any order ends exactly as the pass
   * that completes them first to last, and hands `batch` the same nodes.
   */
  lemma FullPassAnyOrder(s: Instance, feeds: seq<Feed>, policy: Policy, order: seq<nat>)
    requires Valid(s) && s.ready && Schedule(order, |ScanFeeds(s.at, feeds).fetches|)
    ensures Schedule(order, |Run(s, feeds, policy).state.callbacks|)
    ensures var st := Run(s, feeds, policy);
      var a, b := DrainIn(st.state, order, st.effect, st.released), FullPass(s, feeds, policy);
      && a.state == b.state && a.effect == b.effect && a.released == b.released
      && multiset(a.batch) == multiset(b.batch)
  {
    var st := Run(s, feeds, policy);
    assert FullPass(s, feeds, policy) == Drain(st.state, st.effect, st.released);
    DrainOrderIrrelevant(st.state, order, st.effect, st.released);
  }

  /**
   * Whatever order the fetches of a pass complete in, the code as written
   * ends at the cursors and outcome of `PassAsWritten`, the corrected code
   * at those of `PassFixed`.
   */
  lemma AnyOrderPassMatches(s: Instance, feeds: seq<Feed>, order: seq<nat>)
    requires Valid(s) && s.ready && Schedule(order, |ScanFeeds(s.at, feeds).fetches|)
    ensures var st := Run(s, feeds, AsWritten);
      Schedule(order, |st.state.callbacks|) &&
      var a := DrainIn(st.state, order, st.effect, st.released);
      && a.state.at == PassAsWritten(s.at, feeds).at
      && a.effect == (if PassAsWritten(s.at, feeds).didWork then Rerun else EmitReady)
    ensures var st := Run(s, feeds, Corrected);
      Schedule(order, |st.state.callbacks|) &&
      var a := DrainIn(st.state, order, st.effect, st.released);
      && a.state.at == PassFixed(s.at, feeds).at
      && a.effect == (if PassFixed(s.at, feeds).didWork then Rerun else EmitReady)
  {
    FullPassAnyOrder(s, feeds, AsWritten, order);
    AsWrittenPassMatches(s, feeds);
    FullPassAnyOrder(s, feeds, Corrected, order);
    CorrectedPassMatches(s, feeds);
  }
}

=== FILE: passes.dfy ===
/**
 * A whole `_run` pass of index.js as a pure function from the cursors and
 * the feeds to the cursors after every started fetch and batch has
 * completed, plus `didWork`, which decides between running again and
 * emitting 'ready'.
 *
 * `PassAsWritten` is the pass the code performs. Because `n` and `seq` are
 * function-scoped `var`s read by callbacks that run after the scan loop,
 * every completion increments the cursor of the LAST feed that had work,
 * and `min > 0` alone sets `didWork`. `PassFixed` is the evidently intended
 * pass: each completion increments its own feed's cursor, and only
 * started work counts as work.
 */
module Passes {
  import opened Scan

  datatype PassResult = PassResult(at: seq<Cursor>, didWork: bool)

  /** `_at[n].max++`, `k` times. */
  function Bump(at: seq<Cursor>, n: nat, k: nat): (r: seq<Cursor>)
    requires n < |at|
    ensures |r| == |at|
  {
    at[n := Cursor(at[n].min, at[n].max + k)]
  }

  /** The fetches of a scan are for feeds that have cursors. */
  lemma FetchesHaveCursors(at: seq<Cursor>, feeds: seq<Feed>)
    ensures var sc := ScanFeeds(at, feeds);
      forall f :: f in sc.fetches ==> f.feed < |feeds| && f.feed < |sc.at|
  {
    WorkSpec(ScanFeeds(at, feeds).at, feeds);
  }

  /** The feed whose cursor every completion of the pass increments, as written. */
  function CapturedFeed(sc: ScanResult): nat
    requires |sc.fetches| > 0
  {
    sc.fetches[|sc.fetches| - 1].feed
  }

  /** The pass as index.js performs it. */
  function PassAsWritten(at: seq<Cursor>, feeds: seq<Feed>): (r: PassResult)
    ensures |r.at| == |ScanFeeds(at, feeds).at| && r.didWork == ScanFeeds(at, feeds).didWork
    ensures forall i :: 0 <= i < |at| ==> r.at[i].min == at[i].min && at[i].max <= r.at[i].max
  {
    var sc := ScanFeeds(at, feeds);
    if |sc.fetches| == 0 then PassResult(sc.at, sc.didWork)
    else
      FetchesHaveCursors(at, feeds);
      PassResult(Bump(sc.at, CapturedFeed(sc), |sc.fetches|), sc.didWork)
  }

  /** Every lagging feed's cursor moves forward by one entry. */
  function Advance(at: seq<Cursor>, feeds: seq<Feed>): (r: seq<Cursor>)
    requires |feeds| <= |at|
    ensures |r| == |at|
  {
    seq(|at|, i requires 0 <= i < |at| =>
      if i < |feeds| && HasWork(at, feeds, i) then Cursor(at[i].min, at[i].max + 1) else at[i])
  }

  /** The evidently intended pass: each completion credits the feed it fetched from. */
  function PassFixed(at: seq<Cursor>, feeds: seq<Feed>): (r: PassResult)
    ensures |r.at| == |ScanFeeds(at, feeds).at| && (r.didWork <==> |ScanFeeds(at, feeds).fetches| > 0)
    ensures forall i :: 0 <= i < |at| ==> r.at[i].min == at[i].min && at[i].max <= r.at[i].max <= at[i].max + 1
  {
    var sc := ScanFeeds(at, feeds);
    PassResult(Advance(sc.at, feeds), |sc.fetches| > 0)
  }

  // ---------------------------------------------------------------------
  // Cursor bounds

  /** Cursors line up with a prefix of the feeds and none is past its feed's length. */
  predicate Bounded(at: seq<Cursor>, feeds: seq<Feed>) {
    |at| <= |feeds| && forall i :: 0 <= i < |at| ==> at[i].max <= feeds[i].length
  }

  /** Feeds only grow: none disappears and no length shrinks. */
  predicate Grows(feeds: seq<Feed>, later: seq<Feed>) {
    |feeds| <= |later| && forall i :: 0 <= i < |feeds| ==> feeds[i].length <= later[i].length
  }

  /**
   * The corrected pass keeps every cursor within its feed, never moves `max`
   * back, moves it by at most one entry, and never touches `min`.
   */
  lemma FixedPassBounded(at: seq<Cursor>, feeds: seq<Feed>)
    requires Bounded(at, feeds)
    ensures var r := PassFixed(at, feeds).at;
      && |r| == |feeds|
      && Bounded(r, feeds)
      && (forall i :: 0 <= i < |at| ==> r[i].min == at[i].min && at[i].max <= r[i].max <= at[i].max + 1)
      && (forall i :: |at| <= i < |feeds| ==> r[i] == FreshCursor(feeds[i]))
  {
  }

  /** Successive `feeds()` snapshots, each grown from the one before. */
  predicate Chain(history: seq<seq<Feed>>) {
    forall j :: 0 < j < |history| ==> Grows(history[j - 1], history[j])
  }

  /** Corrected passes, one over each snapshot in turn. */
  function FixedRun(at: seq<Cursor>, history: seq<seq<Feed>>): seq<Cursor>
    decreases |history|
  {
    if |history| == 0 then at else FixedRun(PassFixed(at, history[0]).at, history[1..])
  }

  /** Over any run of corrected passes on growing feeds, cursors stay within their feeds and only move forward. */
  lemma {:induction false} FixedRunBounded(at: seq<Cursor>, history: seq<seq<Feed>>)
    requires |history| > 0 && Chain(history) && Bounded(at, history[0])
    ensures var r := FixedRun(at, history);
      && Bounded(r, history[|history| - 1])
      && |at| <= |r|
      && forall i :: 0 <= i < |at| ==> r[i].min == at[i].min && at[i].max <= r[i].max
    decreases |history|
  {
    var feeds := history[0];
    FixedPassBounded(at, feeds);
    var next := PassFixed(at, feeds).at;
    if |history| > 1 {
      var rest := history[1..];
      assert Grows(history[0], history[1]);
      assert Bounded(next, rest[0]);
      assert forall j :: 0 < j < |rest| ==> rest[j - 1] == history[j] && rest[j] == history[j + 1];
      FixedRunBounded(next, rest);
    }
  }

  // ---------------------------------------------------------------------
  // As written versus corrected

  /** With no feed lagging the corrected pass moves nothing. */
  lemma AdvanceNone(c: seq<Cursor>, feeds: seq<Feed>)
    requires |feeds| <= |c|
    requires forall i :: 0 <= i < |feeds| ==> !HasWork(c, feeds, i)
    ensures Advance(c, feeds) == c
  {
  }

  /** With only feed `n` lagging the corrected pass is one completion credited to `n`. */
  lemma AdvanceOne(c: seq<Cursor>, feeds: seq<Feed>, n: nat)
    requires |feeds| <= |c| && n < |feeds| && HasWork(c, feeds, n)
    requires forall i :: 0 <= i < |feeds| && i != n ==> !HasWork(c, feeds, i)
    ensures Advance(c, feeds) == Bump(c, n, 1)
  {
  }

  /** The only lagging feed of a one-fetch scan is the fetched one. */
  lemma SingleFetchLagging(c: seq<Cursor>, feeds: seq<Feed>)
    requires |feeds| <= |c| && |WorkFrom(c, feeds, 0)| == 1
    ensures var f := WorkFrom(c, feeds, 0)[0];
      f.feed < |feeds| && HasWork(c, feeds, f.feed)
      && forall i :: 0 <= i < |feeds| && i != f.feed ==> !HasWork(c, feeds, i)
  {
    WorkSpec(c, feeds);
    var w := WorkFrom(c, feeds, 0);
    assert w[0] in w;
    forall i | 0 <= i < |feeds| && HasWork(c, feeds, i)
      ensures i == w[0].feed
    {
      assert Fetch(i, c[i].max) in w;
    }
  }

  /** A scan without fetches leaves no feed lagging. */
  lemma NoFetchNoLagging(c: seq<Cursor>, feeds: seq<Feed>)
    requires |feeds| <= |c| && |WorkFrom(c, feeds, 0)| == 0
    ensures forall i :: 0 <= i < |feeds| ==> !HasWork(c, feeds, i)
  {
    WorkSpec(c, feeds);
  }

  /** With at most one feed lagging, the code's pass moves the cursors exactly as the corrected one. */
  lemma AsWrittenAgreesWhenSingle(at: seq<Cursor>, feeds: seq<Feed>)
    requires |ScanFeeds(at, feeds).fetches| <= 1
    ensures PassAsWritten(at, feeds).at == PassFixed(at, feeds).at
    ensures PassAsWritten(at, feeds).didWork <==> PassFixed(at, feeds).didWork || MinPendingFrom(ScanFeeds(at, feeds).at, feeds, 0)
  {
    var sc := ScanFeeds(at, feeds);
    if |sc.fetches| == 1 {
      SingleFetchLagging(sc.at, feeds);
      AdvanceOne(sc.at, feeds, sc.fetches[0].feed);
    } else {
      NoFetchNoLagging(sc.at, feeds);
      AdvanceNone(sc.at, feeds);
    }
  }

  /**
   * Two fresh feeds each one entry behind: as written, both completions
   * land on the second cursor, which ends past its feed's length, while
   * the first cursor does not move although its entry was indexed.
   */
  lemma AsWrittenOvershoots(k0: seq<Bytes.byte>, k1: seq<Bytes.byte>)
    ensures var feeds := [Feed(k0, 1), Feed(k1, 1)];
      var at := [Cursor(0, 0), Cursor(0, 0)];
      && PassAsWritten(at, feeds).at == [Cursor(0, 0), Cursor(0, 2)]
      && PassAsWritten(at, feeds).at[1].max > feeds[1].length
      && !Bounded(PassAsWritten(at, feeds).at, feeds)
      && PassFixed(at, feeds).at == [Cursor(0, 1), Cursor(0, 1)]
  {
    var feeds := [Feed(k0, 1), Feed(k1, 1)];
    var at := [Cursor(0, 0), Cursor(0, 0)];
    var sc := ScanFeeds(at, feeds);
    assert sc.at == at;
    assert WorkFrom(at, feeds, 2) == [];
    assert WorkFrom(at, feeds, 1) == [Fetch(1, 0)];
    assert WorkFrom(at, feeds, 0) == [Fetch(0, 0), Fetch(1, 0)];
  }

  /**
   * What follows the overshoot of `AsWrittenOvershoots`: the next pass
   * fetches feed 0's entry a second time, and the pass after it is idle.
   * When feed 1 then grows by one entry, no pass fetches that entry,
   * because feed 1's cursor already stands past it; corrected, it is fetched.
   */
  lemma AsWrittenSkipsLaterEntry(k0: seq<Bytes.byte>, k1: seq<Bytes.byte>)
    ensures var feeds, grown := [Feed(k0, 1), Feed(k1, 1)], [Feed(k0, 1), Feed(k1, 2)];
      var at := [Cursor(0, 0), Cursor(0, 0)];
      var p1 := PassAsWritten(at, feeds);
      var p2 := PassAsWritten(p1.at, feeds);
      && ScanFeeds(p1.at, feeds).fetches == [Fetch(0, 0)]
      && p2 == PassResult([Cursor(0, 1), Cursor(0, 2)], true)
      && PassAsWritten(p2.at, feeds) == PassResult(p2.at, false)
      && ScanFeeds(p2.at, grown).fetches == []
      && ScanFeeds(PassFixed(at, feeds).at, grown).fetches == [Fetch(1, 1)]
  {
    var feeds, grown := [Feed(k0, 1), Feed(k1, 1)], [Feed(k0, 1), Feed(k1, 2)];
    var at := [Cursor(0, 0), Cursor(0, 0)];
    AsWrittenOvershoots(k0, k1);
    var c1 := [Cursor(0, 0), Cursor(0, 2)];
    assert ScanFeeds(c1, feeds).at == c1;
    assert WorkFrom(c1, feeds, 1) == [];
    assert WorkFrom(c1, feeds, 0) == [Fetch(0, 0)];
    var c2 := [Cursor(0, 1), Cursor(0, 2)];
    assert ScanFeeds(c2, feeds).at == c2;
    assert WorkFrom(c2, feeds, 1) == [];
    assert WorkFrom(c2, feeds, 0) == [];
    assert !MinPendingFrom(c2, feeds, 0);
    assert ScanFeeds(c2, grown).at == c2;
    assert WorkFrom(c2, grown, 1) == [];
    assert WorkFrom(c2, grown, 0) == [];
    var f1 := [Cursor(0, 1), Cursor(0, 1)];
    assert ScanFeeds(f1, grown).at == f1;
    assert WorkFrom(f1, grown, 1) == [Fetch(1, 1)];
    assert WorkFrom(f1, grown, 0) == [Fetch(1, 1)];
  }

  /**
   * As written, a caught-up pass with any positive `min` reports work
   * without changing anything: running again gives the same pass, so the
   * loop never reaches 'ready'.
   */
  lemma AsWrittenSpinsWhenCaughtUp(at: seq<Cursor>, feeds: seq<Feed>)
    requires |ScanFeeds(at, feeds).fetches| == 0
    requires MinPendingFrom(ScanFeeds(at, feeds).at, feeds, 0)
    ensures PassAsWritten(at, feeds).didWork
    ensures PassAsWritten(PassAsWritten(at, feeds).at, feeds) == PassAsWritten(at, feeds)
  {
    var sc := ScanFeeds(at, feeds);
    var sc2 := ScanFeeds(sc.at, feeds);
    assert sc2.at == sc.at;
  }

  /** A feed that already holds entries when first seen gets `min > 0`, which makes the code spin. */
  lemma FirstSeenNonEmptyFeedSpins(key: seq<Bytes.byte>, length: nat)
    requires length > 0
    ensures var r := PassAsWritten([], [Feed(key, length)]);
      && r == PassResult([Cursor(length, length)], true)
      && PassAsWritten(r.at, [Feed(key, length)]) == r
      && PassFixed([], [Feed(key, length)]) == PassResult([Cursor(length, length)], false)
  {
    var feeds := [Feed(key, length)];
    var sc := ScanFeeds([], feeds);
    assert sc.at == [Cursor(length, length)];
    assert WorkFrom(sc.at, feeds, 1) == [];
    assert sc.fetches == [];
    assert MinPendingFrom(sc.at, feeds, 0);
    AsWrittenSpinsWhenCaughtUp([], feeds);
  }

  // ---------------------------------------------------------------------
  // Progress and delivery of the corrected loop

  /** Entries not yet indexed in the feeds at position `i` and later. */
  function RemainingFrom(c: seq<Cursor>, feeds: seq<Feed>, i: nat): nat
    requires |feeds| <= |c|
    decreases |feeds| - i
  {
    if i >= |feeds| then 0
    else (if HasWork(c, feeds, i) then feeds[i].length - c[i].max else 0) + RemainingFrom(c, feeds, i + 1)
  }

  /** Each fetch of a corrected pass indexes one of the remaining entries. */
  lemma {:induction false} AdvanceProgress(c: seq<Cursor>, feeds: seq<Feed>, i: nat)
    requires |feeds| <= |c|
    decreases |feeds| - i
    ensures RemainingFrom(Advance(c, feeds), feeds, i) + |WorkFrom(c, feeds, i)| == RemainingFrom(c, feeds, i)
  {
    if i < |feeds| {
      AdvanceProgress(c, feeds, i + 1);
    }
  }

  /** The sequence numbers of `feeds[i]` in a list of fetches, in order. */
  function Delivered(log: seq<Fetch>, i: nat): seq<nat> {
    if |log| == 0 then []
    else (if log[0].feed == i then [log[0].seqNo] else []) + Delivered(log[1..], i)
  }

  lemma {:induction false} DeliveredConcat(a: seq<Fetch>, b: seq<Fetch>, i: nat)
    ensures Delivered(a + b, i) == Delivered(a, i) + Delivered(b, i)
  {
    if |a| > 0 {
      assert (a + b)[1..] == a[1..] + b;
      DeliveredConcat(a[1..], b, i);
    } else {
      assert a + b == b;
    }
  }

  /** A pass fetches from feed `i` its entry at `max` if it lags, and nothing otherwise. */
  lemma {:induction false} DeliveredWork(c: seq<Cursor>, feeds: seq<Feed>, j: nat, i: nat)
    requires |feeds| <= |c|
    decreases |feeds| - j
    ensures Delivered(WorkFrom(c, feeds, j), i) == if j <= i < |feeds| && HasWork(c, feeds, i) then [c[i].max] else []
  {
    if j < |feeds| {
      var head := if HasWork(c, feeds, j) then [Fetch(j, c[j].max)] else [];
      DeliveredConcat(head, WorkFrom(c, feeds, j + 1), i);
      DeliveredWork(c, feeds, j + 1, i);
      if |head| > 0 {
        assert Delivered(head, i) == (if j == i then [c[j].max] else []) + Delivered([], i);
      }
    }
  }

  /** The sequence numbers `a, a + 1, ..., b - 1`. */
  function Range(a: nat, b: nat): seq<nat>
    decreases b - a
  {
    if a >= b then [] else [a] + Range(a + 1, b)
  }

  /** A pass that reports no work leaves every cursor at its feed's length. */
  lemma IdlePassCaughtUp(at: seq<Cursor>, feeds: seq<Feed>)
    requires Bounded(at, feeds) && !PassFixed(at, feeds).didWork
    ensures var sc := ScanFeeds(at, feeds);
      && PassFixed(at, feeds).at == sc.at
      && forall i :: 0 <= i < |feeds| ==> sc.at[i].max == feeds[i].length
  {
    var sc := ScanFeeds(at, feeds);
    NoFetchNoLagging(sc.at, feeds);
    AdvanceNone(sc.at, feeds);
  }

  /** A pass that reports work leaves fewer entries to index. */
  lemma BusyPassProgress(at: seq<Cursor>, feeds: seq<Feed>)
    requires Bounded(at, feeds) && PassFixed(at, feeds).didWork
    ensures var p := PassFixed(at, feeds).at;
      RemainingFrom(ScanFeeds(p, feeds).at, feeds, 0) < RemainingFrom(ScanFeeds(at, feeds).at, feeds, 0)
  {
    var sc := ScanFeeds(at, feeds);
    var p := PassFixed(at, feeds).at;
    FixedPassBounded(at, feeds);
    AdvanceProgress(sc.at, feeds, 0);
    assert ScanFeeds(p, feeds).at == p;
  }

  /** What one pass fetches from feed `i`, followed by the rest of its entries, is all of them. */
  lemma PassDelivery(at: seq<Cursor>, feeds: seq<Feed>, i: nat)
    requires Bounded(at, feeds) && i < |feeds|
    ensures var sc := ScanFeeds(at, feeds);
      Delivered(sc.fetches, i) + Range(PassFixed(at, feeds).at[i].max, feeds[i].length) == Range(sc.at[i].max, feeds[i].length)
  {
    var sc := ScanFeeds(at, feeds);
    var p := PassFixed(at, feeds).at;
    DeliveredWork(sc.at, feeds, 0, i);
    assert p[i] == Advance(sc.at, feeds)[i];
    if HasWork(sc.at, feeds, i) {
      assert p[i].max == sc.at[i].max + 1;
    } else {
      assert p[i].max == sc.at[i].max;
    }
  }

  /** `Range` splits at any point between its ends. */
  lemma {:induction false} RangeConcat(a: nat, b: nat, c: nat)
    requires a <= b <= c
    decreases b - a
    ensures Range(a, b) + Range(b, c) == Range(a, c)
  {
    if a < b {
      RangeConcat(a + 1, b, c);
      assert ([a] + Range(a + 1, b)) + Range(b, c) == [a] + (Range(a + 1, b) + Range(b, c));
    } else {
      assert Range(a, b) == [];
    }
  }

  /** What one corrected pass fetches from an existing feed is exactly the entries its cursor moved over. */
  lemma PassFetchesMoved(at: seq<Cursor>, feeds: seq<Feed>, i: nat)
    requires Bounded(at, feeds) && i < |at|
    ensures Delivered(ScanFeeds(at, feeds).fetches, i) == Range(at[i].max, PassFixed(at, feeds).at[i].max)
  {
    var sc := ScanFeeds(at, feeds);
    DeliveredWork(sc.at, feeds, 0, i);
    assert Range(at[i].max + 1, at[i].max + 1) == [];
  }

  /** The fetches of corrected passes, one over each snapshot in turn, in the order they are made. */
  function FixedLog(at: seq<Cursor>, history: seq<seq<Feed>>): seq<Fetch>
    decreases |history|
  {
    if |history| == 0 then []
    else ScanFeeds(at, history[0]).fetches + FixedLog(PassFixed(at, history[0]).at, history[1..])
  }

  /**
   * Over any run of corrected passes on feeds that keep growing, each existing
   * feed has had exactly the entries its cursor moved over fetched, once each,
   * in order, with no gaps.
   */
  lemma {:induction false} FixedRunDelivery(at: seq<Cursor>, history: seq<seq<Feed>>, i: nat)
    requires |history| > 0 && Chain(history) && Bounded(at, history[0]) && i < |at|
    ensures var r := FixedRun(at, history);
      i < |r| && Delivered(FixedLog(at, history), i) == Range(at[i].max, r[i].max)
    decreases |history|
  {
    var feeds := history[0];
    var next := PassFixed(at, feeds).at;
    var rest := history[1..];
    FixedPassBounded(at, feeds);
    PassFetchesMoved(at, feeds, i);
    DeliveredConcat(ScanFeeds(at, feeds).fetches, FixedLog(next, rest), i);
    if |history| > 1 {
      assert Grows(history[0], history[1]);
      assert Bounded(next, rest[0]);
      assert forall j :: 0 < j < |rest| ==> rest[j - 1] == history[j] && rest[j] == history[j + 1];
      FixedRunBounded(next, rest);
      FixedRunDelivery(next, rest, i);
      RangeConcat(at[i].max, next[i].max, FixedRun(next, rest)[i].max);
    } else {
      assert Delivered(FixedLog(next, rest), i) == [];
    }
  }

  /** The cursors and the fetch log of a loop that has caught up. */
  datatype Caught = Caught(at: seq<Cursor>, log: seq<Fetch>)

  /**
   * Corrected passes repeated while they report work, as `done()` re-runs
   * `_run`, over feeds that do not grow meanwhile. The loop ends with every
   * cursor at its feed's length, having fetched each entry behind a cursor
   * exactly once, in order, with no gaps; feeds first seen during the loop
   * contribute nothing.
   */
  function CatchUp(at: seq<Cursor>, feeds: seq<Feed>): (r: Caught)
    requires Bounded(at, feeds)
    decreases RemainingFrom(ScanFeeds(at, feeds).at, feeds, 0)
    ensures |r.at| == |feeds|
    ensures forall i :: 0 <= i < |feeds| ==> r.at[i].max == feeds[i].length
    ensures forall i :: 0 <= i < |at| ==> Delivered(r.log, i) == Range(at[i].max, feeds[i].length)
    ensures forall i :: |at| <= i < |feeds| ==> Delivered(r.log, i) == []
  {
    var sc := ScanFeeds(at, feeds);
    var p := PassFixed(at, feeds);
    if !p.didWork then
      IdlePassCaughtUp(at, feeds);
      Caught(p.at, [])
    else
      BusyPassProgress(at, feeds);
      FixedPassBounded(at, feeds);
      var rest := CatchUp(p.at, feeds);
      forall i | 0 <= i < |feeds|
        ensures Delivered(sc.fetches + rest.log, i) == Range(sc.at[i].max, feeds[i].length)
      {
        DeliveredConcat(sc.fetches, rest.log, i);
        PassDelivery(at, feeds, i);
      }
      Caught(rest.at, sc.fetches + rest.log)
  }
}

=== FILE: results.dfy ===
/** Failure-compatible Option and Result types used for the thrown errors of the model. */
module Results {

  datatype Option<+T> = None | Some(value: T)

  /** Either a value or the error a JavaScript call would throw. */
  datatype Result<+T, +E> = Success(value: T) | Failure(error: E) {

    predicate IsFailure() {
      Failure?
    }

    function PropagateFailure<U>(): Result<U, E>
      requires Failure?
    {
      Failure(error)
    }

    function Extract(): T
      requires Success?
    {
      value
    }
  }
}

=== FILE: scan.dfy ===
/**
 * The scan loop of `_run` in index.js: walk `feeds()` in order, give every
 * newly seen feed a cursor at its current length, and start one fetch, at
 * `seq = max`, for each feed whose cursor is behind its length.
 */
module Scan {
  import opened Bytes

  /** `_at[i]`: `max` is the next sequence number to index, `min` the backward bound. */
  datatype Cursor = Cursor(min: nat, max: nat)

  /** What a pass reads of a feed: its key and its current length. */
  datatype Feed = Feed(key: seq<byte>, length: nat)

  /** A `feeds[i].get(seq, ...)` call started by the scan. */
  datatype Fetch = Fetch(feed: nat, seqNo: nat)

  /** The loop's results: the cursors after initialisation, the fetches started, and `didWork`. */
  datatype ScanResult = ScanResult(at: seq<Cursor>, fetches: seq<Fetch>, didWork: bool)

  predicate HasWork(at: seq<Cursor>, feeds: seq<Feed>, i: nat)
    requires i < |at| && i < |feeds|
  {
    at[i].max < feeds[i].length
  }

  /** Reference list of the fetches due from position `i` on: one per lagging feed, at its `max`. */
  function WorkFrom(at: seq<Cursor>, feeds: seq<Feed>, i: nat): seq<Fetch>
    requires |feeds| <= |at|
    decreases |feeds| - i
  {
    if i >= |feeds| then []
    else (if HasWork(at, feeds, i) then [Fetch(i, at[i].max)] else []) + WorkFrom(at, feeds, i + 1)
  }

  /** Some feed at position `i` or later has a positive `min`. */
  predicate MinPendingFrom(at: seq<Cursor>, feeds: seq<Feed>, i: nat)
    requires |feeds| <= |at|
  {
    exists k :: i <= k < |feeds| && at[k].min > 0
  }

  /** The cursor a feed first seen at its current length receives. */
  function FreshCursor(f: Feed): Cursor {
    Cursor(f.length, f.length)
  }

  /** Iterations `i ..` of the `for` loop, with the loop's variables as accumulators. */
  function ScanFrom(feeds: seq<Feed>, i: nat, at: seq<Cursor>, fetches: seq<Fetch>, didWork: bool): (r: ScanResult)
    requires i <= |feeds| && i <= |at|
    decreases |feeds| - i
    ensures |r.at| == if |at| < |feeds| then |feeds| else |at|
    ensures forall k :: 0 <= k < |at| ==> r.at[k] == at[k]
    ensures forall k :: |at| <= k < |feeds| ==> r.at[k] == FreshCursor(feeds[k])
  {
    if i == |feeds| then ScanResult(at, fetches, didWork)
    else
      var at1 := if i < |at| then at else at + [FreshCursor(feeds[i])];
      if at1[i].max < feeds[i].length then
        ScanFrom(feeds, i + 1, at1, fetches + [Fetch(i, at1[i].max)], true)
      else if at1[i].min > 0 then
        ScanFrom(feeds, i + 1, at1, fetches, true)
      else
        ScanFrom(feeds, i + 1, at1, fetches, didWork)
  }

  /** The loop from `i` on appends the fetches due from `i` on, and sets `didWork` iff one is due or some `min` is positive. */
  lemma {:induction false} ScanFromWork(feeds: seq<Feed>, i: nat, at: seq<Cursor>, fetches: seq<Fetch>, didWork: bool)
    requires i <= |feeds| && i <= |at|
    decreases |feeds| - i
    ensures ScanFrom(feeds, i, at, fetches, didWork).fetches == fetches + WorkFrom(ScanFrom(feeds, i, at, fetches, didWork).at, feeds, i)
    ensures ScanFrom(feeds, i, at, fetches, didWork).didWork <==>
      || didWork
      || |WorkFrom(ScanFrom(feeds, i, at, fetches, didWork).at, feeds, i)| > 0
      || MinPendingFrom(ScanFrom(feeds, i, at, fetches, didWork).at, feeds, i)
  {
    if i < |feeds| {
      var r := ScanFrom(feeds, i, at, fetches, didWork);
      var at1 := if i < |at| then at else at + [FreshCursor(feeds[i])];
      var lag := at1[i].max < feeds[i].length;
      var fetches1 := if lag then fetches + [Fetch(i, at1[i].max)] else fetches;
      var didWork1 := if lag then true else if at1[i].min > 0 then true else didWork;
      assert r == ScanFrom(feeds, i + 1, at1, fetches1, didWork1);
      ScanFromWork(feeds, i + 1, at1, fetches1, didWork1);
      assert r.at[i] == at1[i];
      var head := if lag then [Fetch(i, at1[i].max)] else [];
      var rest := WorkFrom(r.at, feeds, i + 1);
      assert WorkFrom(r.at, feeds, i) == head + rest;
      assert fetches1 == fetches + head;
      assert r.fetches == fetches1 + rest;
      assert (fetches + head) + rest == fetches + (head + rest);
      MinPendingStep(r.at, feeds, i);
    }
  }

  lemma MinPendingStep(at: seq<Cursor>, feeds: seq<Feed>, i: nat)
    requires i < |feeds| <= |at|
    ensures MinPendingFrom(at, feeds, i) <==> at[i].min > 0 || MinPendingFrom(at, feeds, i + 1)
  {
  }

  /** The whole scan of one `_run` pass. */
  function ScanFeeds(at: seq<Cursor>, feeds: seq<Feed>): (r: ScanResult)
    ensures |r.at| == if |at| < |feeds| then |feeds| else |at|
    ensures forall k :: 0 <= k < |at| ==> r.at[k] == at[k]
    ensures forall k :: |at| <= k < |feeds| ==> r.at[k] == FreshCursor(feeds[k])
    ensures r.fetches == WorkFrom(r.at, feeds, 0)
    ensures r.didWork <==> |r.fetches| > 0 || MinPendingFrom(r.at, feeds, 0)
  {
    ScanFromWork(feeds, 0, at, [], false);
    ScanFrom(feeds, 0, at, [], false)
  }

  /** Every fetch due from `i` on is for a lagging feed at or after `i`, at that feed's `max`. */
  lemma {:induction false} WorkFromSound(at: seq<Cursor>, feeds: seq<Feed>, i: nat)
    requires |feeds| <= |at|
    decreases |feeds| - i
    ensures forall f :: f in WorkFrom(at, feeds, i) ==> i <= f.feed < |feeds| && HasWork(at, feeds, f.feed) && f.seqNo == at[f.feed].max
  {
    if i < |feeds| {
      WorkFromSound(at, feeds, i + 1);
      var rest := WorkFrom(at, feeds, i + 1);
      var head := if HasWork(at, feeds, i) then [Fetch(i, at[i].max)] else [];
      var w := WorkFrom(at, feeds, i);
      assert w == head + rest;
      assert forall f :: f in w ==> f in head || f in rest;
    }
  }

  /** Strictly increasing feed order: at most one fetch per feed. */
  predicate Ordered(w: seq<Fetch>) {
    forall j, j' :: 0 <= j < j' < |w| ==> w[j].feed < w[j'].feed
  }

  /** A fetch for feed `i` followed by ordered fetches for later feeds is ordered. */
  lemma ConsOrdered(head: seq<Fetch>, rest: seq<Fetch>, i: nat)
    requires |head| <= 1 && (|head| == 1 ==> head[0].feed == i)
    requires Ordered(rest) && forall j :: 0 <= j < |rest| ==> i < rest[j].feed
    ensures Ordered(head + rest)
  {
    var w := head + rest;
    forall j, j' | 0 <= j < j' < |w|
      ensures w[j].feed < w[j'].feed
    {
      assert w[j'] == rest[j' - |head|];
      if j < |head| {
        assert w[j] == head[j];
      } else {
        assert w[j] == rest[j - |head|];
      }
    }
  }

  /** The fetches due are in strictly increasing feed order. */
  lemma {:induction false} WorkFromOrdered(at: seq<Cursor>, feeds: seq<Feed>, i: nat)
    requires |feeds| <= |at|
    decreases |feeds| - i
    ensures Ordered(WorkFrom(at, feeds, i))
  {
    if i < |feeds| {
      var rest := WorkFrom(at, feeds, i + 1);
      var head := if HasWork(at, feeds, i) then [Fetch(i, at[i].max)] else [];
      WorkFromOrdered(at, feeds, i + 1);
      WorkFromSound(at, feeds, i + 1);
      forall j | 0 <= j < |rest|
        ensures i < rest[j].feed
      {
        assert rest[j] in rest;
      }
      ConsOrdered(head, rest, i);
    }
  }

  /** Every lagging feed at or after `i` has a fetch due. */
  lemma {:induction false} WorkFromComplete(at: seq<Cursor>, feeds: seq<Feed>, i: nat, k: nat)
    requires |feeds| <= |at|
    requires i <= k < |feeds| && HasWork(at, feeds, k)
    decreases |feeds| - i
    ensures exists j :: 0 <= j < |WorkFrom(at, feeds, i)| && WorkFrom(at, feeds, i)[j] == Fetch(k, at[k].max)
  {
    var rest := WorkFrom(at, feeds, i + 1);
    var head := if HasWork(at, feeds, i) then [Fetch(i, at[i].max)] else [];
    var w := WorkFrom(at, feeds, i);
    assert w == head + rest;
    if k == i {
      assert w[0] == Fetch(k, at[k].max);
    } else {
      WorkFromComplete(at, feeds, i + 1, k);
      var j :| 0 <= j < |rest| && rest[j] == Fetch(k, at[k].max);
      assert w[|head| + j] == rest[j];
    }
  }

  /**
   * A feed has a fetch in a pass iff its `max` is below its length, and then
   * exactly one, at `seq = max`; fetches go in feed order.
   */
  lemma WorkSpec(at: seq<Cursor>, feeds: seq<Feed>)
    requires |feeds| <= |at|
    ensures forall f :: f in WorkFrom(at, feeds, 0) ==> f.feed < |feeds| && HasWork(at, feeds, f.feed) && f.seqNo == at[f.feed].max
    ensures forall k :: 0 <= k < |feeds| && HasWork(at, feeds, k) ==> Fetch(k, at[k].max) in WorkFrom(at, feeds, 0)
    ensures forall j, j' :: 0 <= j < j' < |WorkFrom(at, feeds, 0)| ==> WorkFrom(at, feeds, 0)[j].feed < WorkFrom(at, feeds, 0)[j'].feed
  {
    WorkFromSound(at, feeds, 0);
    WorkFromOrdered(at, feeds, 0);
    forall k | 0 <= k < |feeds| && HasWork(at, feeds, k)
      ensures Fetch(k, at[k].max) in WorkFrom(at, feeds, 0)
    {
      WorkFromComplete(at, feeds, 0, k);
    }
  }
}

=== FILE: state.dfy ===
/**
 * The binary cursor checkpoint of lib/state.js.
 *
 * Layout: a u32 LE record count N, then N records of
 * (32-byte feed key, u32 LE min, u32 LE max), then an optional u32 LE
 * version. The decoded form keys every record by the hex of its key.
 */
module State {
  import opened Results
  import opened Bytes
  import opened Text
  import opened Dicts

  const KEY_BYTES: nat := 32
  const RECORD_BYTES: nat := 40
  /** The version a checkpoint without a version field decodes to. */
  const DEFAULT_VERSION: int := 1

  /** One feed's cursor as stored: `{ key, min, max }`; `min` and `max` are JavaScript numbers. */
  datatype KeyState = KeyState(key: seq<byte>, min: int, max: int)

  /** The `version` argument of `serializeState`: a number, or anything that is not one. */
  datatype Version = Num(n: int) | NotANumber

  /** `{ keys, version }` as `deserializeState` returns it. */
  datatype ViewState = ViewState(keys: Dict<KeyState>, version: int)

  /** Offset of record `i` in a checkpoint. */
  function RecordOffset(i: nat): nat {
    4 + RECORD_BYTES * i
  }

  predicate AllU32(at: seq<KeyState>) {
    forall i :: 0 <= i < |at| ==> IsU32(at[i].min) && IsU32(at[i].max)
  }

  predicate AllKeys32(at: seq<KeyState>) {
    forall i :: 0 <= i < |at| ==> |at[i].key| == KEY_BYTES
  }

  /** `version && typeof version === 'number'`: only a non-zero number is written. */
  predicate WritesVersion(v: Version) {
    v.Num? && v.n != 0
  }

  /** The version a serialized checkpoint will decode to. */
  function StoredVersion(v: Version): int {
    if WritesVersion(v) then v.n else DEFAULT_VERSION
  }

  function VersionBytes(v: Version): (r: Result<seq<byte>, Error>)
    ensures r.Success? <==> !WritesVersion(v) || IsU32(v.n)
    ensures r.Success? ==> |r.value| == (if WritesVersion(v) then 4 else 0)
    ensures r.Success? && WritesVersion(v) ==> DecodeU32(r.value) == v.n
  {
    if WritesVersion(v) then Int32Buf(v.n) else Success([])
  }

  /** The bytes of one record. */
  function RecordBytes(ks: KeyState): seq<byte>
    requires IsU32(ks.min) && IsU32(ks.max)
  {
    ks.key + EncodeU32(ks.min) + EncodeU32(ks.max)
  }

  /** The records in order, each as `RecordBytes`. */
  function EncodeRecords(at: seq<KeyState>): seq<byte>
    requires AllU32(at)
  {
    if |at| == 0 then [] else EncodeRecords(at[..|at| - 1]) + RecordBytes(at[|at| - 1])
  }

  /** With 32-byte keys every record takes 40 bytes. */
  lemma {:induction false} EncodeRecordsLength(at: seq<KeyState>)
    requires AllU32(at) && AllKeys32(at)
    ensures |EncodeRecords(at)| == RECORD_BYTES * |at|
  {
    if |at| > 0 {
      var init := at[..|at| - 1];
      InitKeys(at);
      EncodeRecordsLength(init);
      RecordFields(at[|at| - 1]);
    }
  }

  /** Record `i` starts at `40 * i`. */
  lemma {:induction false} EncodeRecordsLayout(at: seq<KeyState>, i: nat)
    requires AllU32(at) && AllKeys32(at) && i < |at|
    ensures |EncodeRecords(at)| == RECORD_BYTES * |at|
    ensures EncodeRecords(at)[RECORD_BYTES * i..RECORD_BYTES * i + 40] == RecordBytes(at[i])
  {
    var init := at[..|at| - 1];
    InitKeys(at);
    var rest := EncodeRecords(init);
    var last := RecordBytes(at[|at| - 1]);
    EncodeRecordsLength(at);
    EncodeRecordsLength(init);
    assert EncodeRecords(at) == rest + last;
    if i < |init| {
      EncodeRecordsLayout(init, i);
      assert init[i] == at[i];
      SliceOfPrefix(rest, last, RECORD_BYTES * i, RECORD_BYTES * i + 40);
    } else {
      RecordFields(at[|at| - 1]);
      assert (rest + last)[|rest|..|rest| + 40] == last;
    }
  }

  /** The records before the last keep the bounds and key lengths of the whole. */
  lemma InitKeys(at: seq<KeyState>)
    requires AllU32(at) && AllKeys32(at) && |at| > 0
    ensures AllU32(at[..|at| - 1]) && AllKeys32(at[..|at| - 1])
    ensures IsU32(at[|at| - 1].min) && IsU32(at[|at| - 1].max) && |at[|at| - 1].key| == KEY_BYTES
  {
    assert forall i :: 0 <= i < |at| - 1 ==> at[..|at| - 1][i] == at[i];
  }

  lemma SliceOfPrefix(a: seq<byte>, b: seq<byte>, lo: nat, hi: nat)
    requires lo <= hi <= |a|
    ensures (a + b)[lo..hi] == a[lo..hi]
  {
  }

  /** The loop of `serializeState`: each record is its key, then `int32buf(min)`, then `int32buf(max)`. */
  function SerializeRecords(at: seq<KeyState>): (r: Result<seq<byte>, Error>)
    ensures r.Success? <==> AllU32(at)
    ensures r.Success? ==> r.value == EncodeRecords(at)
  {
    if |at| == 0 then Success([])
    else
      var init := at[..|at| - 1];
      var last := at[|at| - 1];
      AllU32Init(at);
      var rest :- SerializeRecords(init);
      var mn :- Int32Buf(last.min);
      var mx :- Int32Buf(last.max);
      EncodeDecode(mn);
      EncodeDecode(mx);
      assert rest + last.key + mn + mx == EncodeRecords(init) + RecordBytes(last);
      Success(rest + last.key + mn + mx)
  }

  /** All records fit in u32 iff the ones before the last do and the last does. */
  lemma AllU32Init(at: seq<KeyState>)
    requires |at| > 0
    ensures AllU32(at) <==> AllU32(at[..|at| - 1]) && IsU32(at[|at| - 1].min) && IsU32(at[|at| - 1].max)
  {
    assert forall i :: 0 <= i < |at| - 1 ==> at[..|at| - 1][i] == at[i];
  }

  /** `serializeState(at, version)`: every number written must fit in a u32, or `writeUInt32LE` throws. */
  function SerializeState(at: Dict<KeyState>, version: Version): (r: Result<seq<byte>, Error>)
    ensures r.Success? <==> IsU32(|at|) && AllU32(Values(at)) && (!WritesVersion(version) || IsU32(version.n))
  {
    var vals := Values(at);
    var len :- Int32Buf(|vals|);
    var recs :- SerializeRecords(vals);
    var ver :- VersionBytes(version);
    Success(len + recs + ver)
  }

  /** The bytes `serializeState` produces, when it succeeds. */
  function Encoded(at: Dict<KeyState>, version: Version): seq<byte>
    requires IsU32(|at|) && AllU32(Values(at)) && (!WritesVersion(version) || IsU32(version.n))
  {
    EncodeU32(|at|) + EncodeRecords(Values(at)) + (if WritesVersion(version) then EncodeU32(version.n) else [])
  }

  lemma SerializeIsEncoded(at: Dict<KeyState>, version: Version)
    requires SerializeState(at, version).Success?
    ensures SerializeState(at, version).value == Encoded(at, version)
  {
    EncodeDecode(Int32Buf(|at|).value);
    if WritesVersion(version) {
      EncodeDecode(VersionBytes(version).value);
    }
  }

  /** The serialized length: `4 + 40 * N`, plus 4 exactly when a version is written. */
  lemma SerializeLength(at: Dict<KeyState>, version: Version)
    requires SerializeState(at, version).Success?
    requires AllKeys32(Values(at))
    ensures |SerializeState(at, version).value| == RecordOffset(|at|) + (if WritesVersion(version) then 4 else 0)
  {
    SerializeIsEncoded(at, version);
    if |at| > 0 {
      EncodeRecordsLayout(Values(at), 0);
    }
  }

  /** The first four bytes hold the record count, little-endian. */
  lemma SerializeCount(at: Dict<KeyState>, version: Version)
    requires SerializeState(at, version).Success?
    ensures |SerializeState(at, version).value| >= 4
    ensures DecodeU32(SerializeState(at, version).value[..4]) == |at|
  {
    SerializeIsEncoded(at, version);
    var buf := SerializeState(at, version).value;
    assert buf[..4] == EncodeU32(|at|);
    DecodeEncode(|at|);
  }

  /** Record `i` starts at `4 + 40 * i`: the key, then `min` at +32, then `max` at +36. */
  lemma SerializeRecordLayout(at: Dict<KeyState>, version: Version, i: nat)
    requires SerializeState(at, version).Success?
    requires AllKeys32(Values(at)) && i < |at|
    ensures var buf, p := SerializeState(at, version).value, RecordOffset(i);
      && p + 40 <= |buf|
      && buf[p..p + 32] == Values(at)[i].key
      && DecodeU32(buf[p + 32..p + 36]) == Values(at)[i].min
      && DecodeU32(buf[p + 36..p + 40]) == Values(at)[i].max
  {
    SerializeIsEncoded(at, version);
    EncodedRecordLayout(|at|, Values(at), if WritesVersion(version) then EncodeU32(version.n) else [], i);
  }

  /** Record `i` of a count, the records and a trailer, laid out as `serializeState` lays them out. */
  lemma EncodedRecordLayout(n: nat, vals: seq<KeyState>, trailer: seq<byte>, i: nat)
    requires IsU32(n) && AllU32(vals) && AllKeys32(vals) && i < |vals|
    ensures var buf, p := EncodeU32(n) + EncodeRecords(vals) + trailer, RecordOffset(i);
      && p + 40 <= |buf|
      && buf[p..p + 32] == vals[i].key
      && DecodeU32(buf[p + 32..p + 36]) == vals[i].min
      && DecodeU32(buf[p + 36..p + 40]) == vals[i].max
  {
    var recs := EncodeRecords(vals);
    var buf := EncodeU32(n) + recs + trailer;
    var q := RECORD_BYTES * i;
    var p := RecordOffset(i);
    EncodeRecordsLayout(vals, i);
    SliceOfMiddle(EncodeU32(n), recs, trailer, q, q + 40);
    var rb := RecordBytes(vals[i]);
    RecordFields(vals[i]);
    SubSlice(buf, p, rb, 0, 32);
    SubSlice(buf, p, rb, 32, 36);
    SubSlice(buf, p, rb, 36, 40);
  }

  /** A slice of a slice is a slice. */
  lemma SubSlice(buf: seq<byte>, p: nat, part: seq<byte>, lo: nat, hi: nat)
    requires p + |part| <= |buf| && buf[p..p + |part|] == part && lo <= hi <= |part|
    ensures buf[p + lo..p + hi] == part[lo..hi]
  {
    assert forall k :: lo <= k < hi ==> buf[p + k] == part[k];
  }

  /** A record is its 32-byte key followed by `min` and `max`, each read back from its four bytes. */
  lemma RecordFields(ks: KeyState)
    requires IsU32(ks.min) && IsU32(ks.max) && |ks.key| == KEY_BYTES
    ensures |RecordBytes(ks)| == RECORD_BYTES
    ensures RecordBytes(ks)[..32] == ks.key
    ensures DecodeU32(RecordBytes(ks)[32..36]) == ks.min && DecodeU32(RecordBytes(ks)[36..40]) == ks.max
  {
    var rb := RecordBytes(ks);
    assert rb[32..36] == EncodeU32(ks.min);
    assert rb[36..40] == EncodeU32(ks.max);
    DecodeEncode(ks.min);
    DecodeEncode(ks.max);
  }

  lemma SliceOfMiddle(a: seq<byte>, b: seq<byte>, c: seq<byte>, lo: nat, hi: nat)
    requires lo <= hi <= |b|
    ensures (a + b + c)[|a| + lo..|a| + hi] == b[lo..hi]
  {
  }

  /** A written version sits in the four bytes right after the records. */
  lemma SerializeVersionLayout(at: Dict<KeyState>, version: Version)
    requires SerializeState(at, version).Success?
    requires AllKeys32(Values(at)) && WritesVersion(version)
    ensures var buf, p := SerializeState(at, version).value, RecordOffset(|at|);
      p + 4 == |buf| && DecodeU32(buf[p..p + 4]) == version.n
  {
    SerializeIsEncoded(at, version);
    SerializeLength(at, version);
    var buf := SerializeState(at, version).value;
    assert buf[RecordOffset(|at|)..] == EncodeU32(version.n);
    DecodeEncode(version.n);
  }

  // ---------------------------------------------------------------------
  // Decoding

  /** One record as the loop of `deserializeState` reads it at `pos`; `slice` never throws. */
  function RecordAt(buf: seq<byte>, pos: nat): (r: Result<KeyState, Error>)
    ensures r.Success? <==> pos + 40 <= |buf|
    ensures r.Success? ==> r.value == KeyState(buf[pos..pos + 32], DecodeU32(buf[pos + 32..pos + 36]), DecodeU32(buf[pos + 36..pos + 40]))
  {
    var key := Slice(buf, pos, pos + 32);
    var mn :- ReadUInt32LE(buf, pos + 32);
    var mx :- ReadUInt32LE(buf, pos + 36);
    Success(KeyState(key, mn, mx))
  }

  /** The records a buffer declares, each read at its fixed offset. */
  function Records(buf: seq<byte>, count: nat): (recs: seq<KeyState>)
    requires count == 0 || RecordOffset(count) <= |buf|
    ensures |recs| == count
    ensures forall i :: 0 <= i < count ==> RecordAt(buf, RecordOffset(i)) == Success(recs[i])
    ensures forall i :: 0 <= i < count ==> var p := RecordOffset(i);
      recs[i] == KeyState(buf[p..p + 32], DecodeU32(buf[p + 32..p + 36]), DecodeU32(buf[p + 36..p + 40]))
  {
    seq(count, i requires 0 <= i < count => RecordAt(buf, RecordOffset(i)).value)
  }

  lemma RecordsPrefix(buf: seq<byte>, count: nat)
    requires 0 < count && RecordOffset(count) <= |buf|
    ensures Records(buf, count)[..count - 1] == Records(buf, count - 1)
    ensures RecordAt(buf, RecordOffset(count - 1)) == Success(Records(buf, count)[count - 1])
  {
  }

  /** The record that a name last refers to: an independent statement of "later records win". */
  function LastWithName(recs: seq<KeyState>, h: string): (r: Option<KeyState>)
    ensures r.Some? ==> exists i :: 0 <= i < |recs| && recs[i] == r.value && Hex(recs[i].key) == h
    ensures r.None? <==> forall i :: 0 <= i < |recs| ==> Hex(recs[i].key) != h
  {
    if |recs| == 0 then None
    else if Hex(recs[|recs| - 1].key) == h then Some(recs[|recs| - 1])
    else
      var init := recs[..|recs| - 1];
      assert forall i :: 0 <= i < |init| ==> init[i] == recs[i];
      LastWithName(init, h)
  }

  /** `state.keys[key.toString('hex')] = {key, min, max}` for each record in turn. */
  function FromRecords(recs: seq<KeyState>): (d: Dict<KeyState>)
    ensures |d| <= |recs|
    ensures |recs| > 0 ==> Get(d, Hex(recs[|recs| - 1].key)) == Some(recs[|recs| - 1])
  {
    if |recs| == 0 then []
    else
      var last := recs[|recs| - 1];
      Put(FromRecords(recs[..|recs| - 1]), Hex(last.key), last)
  }

  /** Records with equal keys collapse to one property, and the later record wins. */
  lemma {:induction false} FromRecordsLastWins(recs: seq<KeyState>, h: string)
    ensures UniqueNames(FromRecords(recs))
    ensures Get(FromRecords(recs), h) == LastWithName(recs, h)
  {
    if |recs| > 0 {
      var init := recs[..|recs| - 1];
      var last := recs[|recs| - 1];
      var d := FromRecords(init);
      FromRecordsLastWins(init, h);
      PutKeepsUnique(d, Hex(last.key), last);
      assert FromRecords(recs) == Put(d, Hex(last.key), last);
      assert LastWithName(recs, h) == if Hex(last.key) == h then Some(last) else LastWithName(init, h);
    }
  }

  /** The record loop of `deserializeState`; the first read past the end throws. */
  function ReadRecords(buf: seq<byte>, count: nat): (r: Result<Dict<KeyState>, Error>)
    ensures r.Success? <==> count == 0 || RecordOffset(count) <= |buf|
    ensures r.Success? ==> r.value == FromRecords(Records(buf, count))
  {
    if count == 0 then Success([])
    else
      var prev :- ReadRecords(buf, count - 1);
      var rec :- RecordAt(buf, RecordOffset(count - 1));
      ReadRecordsStep(buf, count);
      Success(Put(prev, Hex(rec.key), rec))
  }

  /** One more iteration of the record loop adds the next record to the dictionary built so far. */
  lemma ReadRecordsStep(buf: seq<byte>, count: nat)
    requires 0 < count && RecordOffset(count) <= |buf|
    ensures var rec := Records(buf, count)[count - 1];
      && RecordAt(buf, RecordOffset(count - 1)) == Success(rec)
      && FromRecords(Records(buf, count)) == Put(FromRecords(Records(buf, count - 1)), Hex(rec.key), rec)
  {
    var recs := Records(buf, count);
    RecordsPrefix(buf, count);
    assert FromRecords(recs) == Put(FromRecords(recs[..count - 1]), Hex(recs[count - 1].key), recs[count - 1]);
  }

  /** The version field is read only when four whole bytes follow the records. */
  function VersionAt(buf: seq<byte>, count: nat): (v: int)
    ensures RecordOffset(count) + 4 <= |buf| ==> v == DecodeU32(buf[RecordOffset(count)..RecordOffset(count) + 4])
    ensures RecordOffset(count) + 4 > |buf| ==> v == DEFAULT_VERSION
  {
    if RecordOffset(count) + 4 <= |buf| then ReadUInt32LE(buf, RecordOffset(count)).value else DEFAULT_VERSION
  }

  /** `deserializeState(buf)`. */
  function DeserializeState(buf: seq<byte>): (r: Result<ViewState, Error>)
    ensures r.Success? <==> |buf| >= 4 && RecordOffset(DecodeU32(buf[..4])) <= |buf|
    ensures r.Success? ==>
      var n := DecodeU32(buf[..4]);
      r.value == ViewState(FromRecords(Records(buf, n)), VersionAt(buf, n))
  {
    var len :- ReadUInt32LE(buf, 0);
    assert buf[0..4] == buf[..4];
    var keys :- ReadRecords(buf, len);
    Success(ViewState(keys, VersionAt(buf, len)))
  }

  /** Bytes after the version field are never read. */
  lemma IgnoresTrailingBytes(buf: seq<byte>, extra: seq<byte>)
    requires |buf| >= 4 && RecordOffset(DecodeU32(buf[..4])) + 4 <= |buf|
    ensures DeserializeState(buf + extra) == DeserializeState(buf)
  {
    var all := buf + extra;
    assert all[..4] == buf[..4];
    var n := DecodeU32(buf[..4]);
    RecordsExtended(buf, extra, n);
    VersionExtended(buf, extra, n);
  }

  /** A version field inside the buffer reads the same whatever follows the buffer. */
  lemma VersionExtended(buf: seq<byte>, extra: seq<byte>, n: nat)
    requires RecordOffset(n) + 4 <= |buf|
    ensures VersionAt(buf + extra, n) == VersionAt(buf, n)
  {
    var p := RecordOffset(n);
    assert (buf + extra)[p..p + 4] == buf[p..p + 4];
  }

  /** The records a buffer declares read the same whatever follows the buffer. */
  lemma RecordsExtended(buf: seq<byte>, extra: seq<byte>, n: nat)
    requires RecordOffset(n) <= |buf|
    ensures Records(buf + extra, n) == Records(buf, n)
  {
    forall i | 0 <= i < n
      ensures Records(buf + extra, n)[i] == Records(buf, n)[i]
    {
      RecordAtExtended(buf, extra, RecordOffset(i));
    }
  }

  /** A record inside the buffer reads the same whatever follows the buffer. */
  lemma RecordAtExtended(buf: seq<byte>, extra: seq<byte>, p: nat)
    requires p + 40 <= |buf|
    ensures RecordAt(buf + extra, p) == RecordAt(buf, p)
  {
    var all := buf + extra;
    assert all[p..p + 32] == buf[p..p + 32];
    assert all[p + 32..p + 36] == buf[p + 32..p + 36];
    assert all[p + 36..p + 40] == buf[p + 36..p + 40];
  }

  /** The stored form of a decoded dictionary: every property is named by the hex of its record's key. */
  predicate KeyedByHex(d: Dict<KeyState>) {
    forall i :: 0 <= i < |d| ==> d[i].0 == Hex(d[i].1.key)
  }

  /** A cursor dictionary the codec stores faithfully: hex names, 32-byte keys, u32 bounds. */
  predicate Storable(d: Dict<KeyState>) {
    && UniqueNames(d)
    && KeyedByHex(d)
    && AllKeys32(Values(d))
    && AllU32(Values(d))
    && IsU32(|d|)
  }

  /** Rebuilding a hex-keyed dictionary from its values gives it back, in the same order. */
  lemma {:induction false} FromValues(d: Dict<KeyState>)
    requires UniqueNames(d) && KeyedByHex(d)
    ensures FromRecords(Values(d)) == d
  {
    if |d| > 0 {
      var n := |d|;
      var init := d[..n - 1];
      var last := d[n - 1];
      var vs := Values(d);
      ValuesInit(d);
      InitOfUnique(d);
      FromValues(init);
      assert FromRecords(vs) == Put(FromRecords(vs[..n - 1]), Hex(vs[n - 1].key), vs[n - 1]);
      assert FromRecords(vs) == Put(init, last.0, last.1);
      assert d == init + [last];
    }
  }

  /** Dropping the last property keeps names unique and hex-keyed, and that property's name is not among the rest. */
  lemma InitOfUnique(d: Dict<KeyState>)
    requires UniqueNames(d) && KeyedByHex(d) && |d| > 0
    ensures UniqueNames(d[..|d| - 1]) && KeyedByHex(d[..|d| - 1])
    ensures !HasName(d[..|d| - 1], d[|d| - 1].0)
    ensures d[|d| - 1].0 == Hex(d[|d| - 1].1.key)
  {
    var init := d[..|d| - 1];
    assert forall i :: 0 <= i < |init| ==> init[i] == d[i];
  }

  /** The values of a dictionary without its last property, and that property's value. */
  lemma ValuesInit(d: Dict<KeyState>)
    requires |d| > 0
    ensures Values(d)[..|d| - 1] == Values(d[..|d| - 1])
    ensures Values(d)[|d| - 1] == d[|d| - 1].1
  {
  }

  /**
   * Round trip: decoding a serialized dictionary gives it back unchanged;
   * the version comes back when it is a non-zero number and as 1 otherwise.
   */
  lemma RoundTrip(d: Dict<KeyState>, version: Version)
    requires Storable(d)
    requires !WritesVersion(version) || IsU32(version.n)
    ensures SerializeState(d, version).Success?
    ensures DeserializeState(SerializeState(d, version).value) == Success(ViewState(d, StoredVersion(version)))
  {
    var buf := SerializeState(d, version).value;
    var vals := Values(d);
    var n := |d|;
    SerializeCount(d, version);
    SerializeLength(d, version);
    forall i | 0 <= i < n
      ensures Records(buf, n)[i] == vals[i]
    {
      SerializeRecordLayout(d, version, i);
    }
    assert Records(buf, n) == vals;
    FromValues(d);
    if WritesVersion(version) {
      SerializeVersionLayout(d, version);
    }
  }

  /**
   * The round trip stated per key: for cursors with distinct 32-byte keys,
   * the decoded `keys` map each key's hex to that very cursor.
   */
  lemma RoundTripByKey(at: seq<KeyState>, version: Version)
    requires forall i, j :: 0 <= i < j < |at| ==> at[i].key != at[j].key
    requires AllKeys32(at) && AllU32(at) && IsU32(|at|)
    requires !WritesVersion(version) || IsU32(version.n)
    ensures SerializeState(ByHex(at), version).Success?
    ensures var r := DeserializeState(SerializeState(ByHex(at), version).value);
      && r.Success?
      && r.value.version == StoredVersion(version)
      && |r.value.keys| == |at|
      && forall i :: 0 <= i < |at| ==> Get(r.value.keys, Hex(at[i].key)) == Some(at[i])
  {
    var d := ByHex(at);
    forall i, j | 0 <= i < j < |d|
      ensures d[i].0 != d[j].0
    {
      HexInjective(at[i].key, at[j].key);
    }
    assert Values(d) == at;
    RoundTrip(d, version);
    forall i | 0 <= i < |at|
      ensures Get(d, Hex(at[i].key)) == Some(at[i])
    {
      GetAt(d, i);
    }
  }

  /** The dictionary `serializeState` is given for a list of cursors: each under the hex of its key, in order. */
  function ByHex(at: seq<KeyState>): (d: Dict<KeyState>)
    ensures |d| == |at| && forall i :: 0 <= i < |at| ==> d[i] == (Hex(at[i].key), at[i])
  {
    seq(|at|, i requires 0 <= i < |at| => (Hex(at[i].key), at[i]))
  }

  /** Two records for one key decode to a single property holding the later record. */
  lemma DuplicateKeysCollapse(first: KeyState, second: KeyState)
    requires first.key == second.key
    ensures FromRecords([first, second]) == [(Hex(second.key), second)]
  {
    var h := Hex(second.key);
    assert [first, second][..1] == [first];
    assert [first][..0] == [];
    assert FromRecords([first]) == Put([], h, first) == [(h, first)];
    assert Put([(h, first)], h, second) == [(h, second)];
  }
}

=== FILE: text.dfy ===
/**
 * The two textual renderings the indexer uses: `buf.toString('hex')` for a
 * feed key and `String(n)` for a sequence number, and the entry id
 * `hex(key) + '@' + seq` built from them.
 */
module Text {
  import opened Bytes

  predicate IsDecChar(c: char) {
    '0' <= c <= '9'
  }

  predicate IsHexChar(c: char) {
    IsDecChar(c) || 'a' <= c <= 'f'
  }

  /** The lower-case hex digit for `d`. */
  function HexDigit(d: nat): (c: char)
    requires d < 16
    ensures IsHexChar(c)
  {
    if d < 10 then ('0' as int + d) as char else ('a' as int + d - 10) as char
  }

  /** The decimal digit for `d`. */
  function DecDigit(d: nat): (c: char)
    requires d < 10
    ensures IsDecChar(c)
  {
    ('0' as int + d) as char
  }

  /** Lower-case hex, two characters per byte, high nibble first. */
  function Hex(b: seq<byte>): (s: string)
    ensures |s| == 2 * |b|
    ensures forall i :: 0 <= i < |s| ==> IsHexChar(s[i])
  {
    if |b| == 0 then ""
    else [HexDigit(b[0] / 16), HexDigit(b[0] % 16)] + Hex(b[1..])
  }

  /** The hex rendering of a byte string determines it. */
  lemma {:induction false} HexInjective(a: seq<byte>, b: seq<byte>)
    ensures Hex(a) == Hex(b) <==> a == b
  {
    if Hex(a) == Hex(b) && |a| > 0 {
      assert |b| == |a|;
      var ha, hb := Hex(a), Hex(b);
      assert ha[0] == hb[0] && ha[1] == hb[1];
      assert a[0] / 16 == b[0] / 16 && a[0] % 16 == b[0] % 16;
      assert ha[2..] == Hex(a[1..]) && hb[2..] == Hex(b[1..]);
      HexInjective(a[1..], b[1..]);
      assert a == [a[0]] + a[1..];
      assert b == [b[0]] + b[1..];
    }
  }

  /** `String(n)` for a non-negative integer: decimal digits, no leading zeros. */
  function Decimal(n: nat): (s: string)
    ensures 1 <= |s|
    ensures n >= 10 <==> |s| >= 2
    ensures forall i :: 0 <= i < |s| ==> IsDecChar(s[i])
  {
    if n < 10 then [DecDigit(n)] else Decimal(n / 10) + [DecDigit(n % 10)]
  }

  /** Different numbers print differently. */
  lemma {:induction false} DecimalInjective(m: nat, n: nat)
    ensures Decimal(m) == Decimal(n) <==> m == n
  {
    if Decimal(m) == Decimal(n) && m >= 10 {
      var dm, dn := Decimal(m), Decimal(n);
      assert n >= 10;
      assert dm[|dm| - 1] == DecDigit(m % 10) && dn[|dn| - 1] == DecDigit(n % 10);
      assert m % 10 == n % 10;
      assert dm[..|dm| - 1] == Decimal(m / 10) && dn[..|dn| - 1] == Decimal(n / 10);
      DecimalInjective(m / 10, n / 10);
    }
  }

  /** The id handed to the materializer for entry `seqNo` of the feed with key `key`. */
  function EntryId(key: seq<byte>, seqNo: nat): (id: string)
    ensures |id| > 2 * |key| && id[2 * |key|] == '@'
    ensures forall i :: 0 <= i < |id| && i != 2 * |key| ==> id[i] != '@'
    ensures id[..2 * |key|] == Hex(key) && id[2 * |key| + 1..] == Decimal(seqNo)
  {
    var h, d := Hex(key), Decimal(seqNo);
    var id := h + "@" + d;
    assert forall i :: 2 * |key| < i < |id| ==> id[i] == d[i - 2 * |key| - 1];
    id
  }

  /** An entry id names exactly one (key, seq) pair. */
  lemma EntryIdInjective(k1: seq<byte>, s1: nat, k2: seq<byte>, s2: nat)
    ensures EntryId(k1, s1) == EntryId(k2, s2) <==> k1 == k2 && s1 == s2
  {
    var a, b := EntryId(k1, s1), EntryId(k2, s2);
    if a == b {
      assert a[2 * |k1|] == '@' && b[2 * |k2|] == '@';
      assert |k1| == |k2|;
      var p := 2 * |k1|;
      assert a[..p] == Hex(k1) && b[..p] == Hex(k2);
      HexInjective(k1, k2);
      assert a[p + 1..] == Decimal(s1) && b[p + 1..] == Decimal(s2);
      DecimalInjective(s1, s2);
    }
  }
}
